=== FILE: README.md ===
# Image compressor service — a Dafny model

This project models the core of an image-compression web service. The service
has two parts:

- `CompressorController`, a Web API controller. It compresses one image, a
  list of images, or the images listed in a manifest file (CSV or Excel).
- `ImageCompressor`, a library. It downloads or decodes an image and saves
  it at a given quality with the encoder for its mime type.

The model covers:

- the controller's validation, its per-image and batch logic, and the way
  it turns exceptions into `BadRequest` responses;
- reading manifests (`FileParser`, and the identical copy in
  `FileOperations`);
- writing result manifests (`FileOperations.createCSVFile`,
  `Image.ToString`);
- reading an uploaded CSV (`FileOperations.ParseRawCSV`);
- the two enums whose member names are the supported extensions;
- the library's own decisions: the quality guard, the mime type and encoder
  choice, the output file names, and which exception message reaches the
  caller.

Everything is written as pure functions over immutable data, except for
four methods: the encoder search and the batch loop, which carry loop
invariants, and the two controller actions that call the batch loop
(`Controller.CompressImages` and `Controller.CompressImageFromFile`).

Platform calls are parameters of the model:

- In the library (`Compressor.Platform`): the installed encoders, downloads,
  image decoding and the encoder behind `Image.Save`.
- In the controller (`Controller.Host`): the URI parser, the compressor, and
  the disk together with the Excel reader (`Manifest.FileSystem`).

An exception is modelled as `Failure(message)`, because callers only ever
look at its message. The .NET messages are used verbatim, except those of disk reads, which depend on the platform. A C# `null` is
`None`.

Modules, in dependency order:

| file | module | what it holds |
|---|---|---|
| `wrappers.dfy` | `Wrappers`, `Exceptions` | `Option`, `Result`, running a sequence of calls to the first failure, .NET exception messages |
| `strings.dfy` | `Strings` | `Int32.Parse` and `int.ToString`, `String.Split`, `String.Trim`, `File.ReadAllLines` line splitting and `AppendLine` joining |
| `paths.dfy` | `Paths` | `Path.GetFileName` and `Path.GetExtension` |
| `file_extensions.dfy` | `FileExtensions` | the `imageFormat` and `fileType` enums, `Enum.IsDefined` and `Enum.TryParse` |
| `image.dfy` | `Images` | the `Image` record and `ToString` |
| `manifest.dfy` | `Manifest` | `ParseFile`, `ParseCSV`, `createCSVFile`, `ParseRawCSV` |
| `image_compressor.dfy` | `Compressor` | `ImageCompressor` |
| `controller.dfy` | `Controller` | `CompressorController` |

Behaviours of the code worth knowing, each proved:

- The URL overload of `CompressImage` never uses its `quality` argument. It
  always saves at 90 (`Compressor.UrlQualityIgnored`).
- `ParseFile` reads any extension that `Enum.TryParse` maps to `csv` as a
  CSV file. That includes numeric text such as `0`
  (`FileExtensions.TryParseNumber`). Every other extension goes to the Excel
  reader.
- A file name without an extension makes `ParseFile` throw from
  `String.Remove` (`Manifest.ParseFile`).
- A raw image that is neither PNG nor JPEG throws "Please provide valid
  Extension." inside `CreateImageFromRawBytes`. Its own `catch` replaces that
  message, so the caller only sees "Error while creating image from raw image
  data." (`Compressor.CreateImageFromRawBytes`).
- A list with a `null` element makes `CompressImages` throw outside its
  `try` (`Controller.CompressImages`). `CompressImageFromFile` never passes
  such a list.
- The controller calls `CompressImage(url, extension)` with two arguments.
  The library declares `CompressImage(url, extension, quality, directory)`
  with four. The two are not reconciled: the controller's compressor is an
  abstract function of URL and extension (`Controller.Host.compressor`).
  The library's four-argument overload is modelled on its own
  (`Compressor.CompressImageFromUrl`).

## Model

| member | source | states |
|---|---|---|
| Strings.ParseInt32OfIntToDecimal | CompressorService/FileParser.cs:47 | `int.Parse` of the decimal text `ToString` gives an `int` returns that same `int`, negative values included |
| Strings.IntToDecimalInjective | CompressorService/Models/Image.cs:11 | different ids render as different decimal texts |
| Strings.JoinSplit | CompressorService/FileParser.cs:46 | `Split(',')` loses nothing: joining the fields with `,` gives the line back |
| Strings.SplitJoin | CompressorService/FileParser.cs:46 | one or more fields without a comma, joined with `,`, split back into the same fields |
| Strings.SplitFirstFields | CompressorService/FileParser.cs:46-47 | field 0 is the text before the first `,`; there is a field 1 exactly when the line has a `,`, and it is the text between the first and the second `,` |
| Strings.SplitLinesOfJoinLines | CompressorService/FileOperations.cs:98-114 | lines without line breaks, each written with `AppendLine`, are read back by `ReadAllLines` as exactly those lines, with no extra empty line |
| Strings.IntToDecimal | CompressorService/Models/Image.cs:11 | `int.ToString()` gives at least one character, starts with `-` exactly for a negative number, and is digits otherwise |
| Strings.ParseInt32 | CompressorService/FileParser.cs:47 | `int.Parse` either gives an `int` or fails with the format or the overflow message, and nothing else |
| Strings.Split | CompressorService/FileParser.cs:46 | `Split(',')` always gives at least one field and no field holds a `,` |
| Strings.SplitLines | CompressorService/FileParser.cs:42 | the lines `File.ReadAllLines` returns hold no `\r` or `\n` |
| Strings.TrimUntrimmed | CompressorService/FileParser.cs:24 | text with no white space at either end is left unchanged by trimming |
| Paths.FileName | ImageCompressor/ImageCompressor.cs:128 | the file name is a suffix of the path, contains no `\`, `/` or `:`, and is preceded by a separator whenever it is not the whole path |
| Paths.FileNameOfAppend | ImageCompressor/ImageCompressor.cs:128 | for a non-empty directory ending in a separator, followed by a name holding no separator, the file name is that name |
| Paths.Extension | CompressorService/Controllers/CompressorController.cs:38 | an extension is either empty or a `.` followed by at least one character; it is always a suffix of the path |
| Paths.ExtensionIsPlain | CompressorService/Controllers/CompressorController.cs:38-39 | after its leading `.`, an extension holds no further `.` and no separator |
| Paths.NoDotNoExtension | CompressorService/FileParser.cs:20-21 | a file name without a `.` has an empty extension, so `Remove(0, 1)` fails on it |
| Paths.TrailingDotNoExtension | CompressorService/FileParser.cs:20-21 | a path ending with `.` has an empty extension |
| Paths.ExtensionIsSuffix | CompressorService/Controllers/CompressorController.cs:38-39 | for a non-empty name holding no `.` and no separator, the extension is `.name` exactly when the path ends with `.name` |
| Paths.ExtensionOfAppend | CompressorService/FileOperations.cs:84 | appending `.name` to any path gives it the extension `.name`, when `name` is non-empty and holds no `.` and no separator (appending `.tar.gz` gives `.gz`) |
| FileExtensions.SupportedNames | CompressorService/Enums/FileExtensions.cs:9-20 | the image names are exactly `jpg`, `jpeg` and `png`; the manifest names are exactly `csv` and `xls`; `xlsx` and `JPG` are not names |
| FileExtensions.NamesArePlain | CompressorService/Enums/FileExtensions.cs:9-20 | every member name is non-empty lower-case ASCII, so it has no `.`, comma, white space or separator and does not start with a digit |
| FileExtensions.TryParse | CompressorService/FileParser.cs:24 | text that is empty once trimmed never parses; with `TryParseName`, `TryParseNumber` and `TryParseUpperCase` below, names and numbers parse to their values and case matters |
| FileExtensions.Find | CompressorService/FileParser.cs:24 | name lookup returns a position holding the name, and fails exactly when the name is absent |
| FileExtensions.NamesValue | CompressorService/FileParser.cs:24 | a comma-separated list of names has a value exactly when every trimmed part is a member name |
| FileExtensions.TryParseName | CompressorService/FileParser.cs:24 | every member name parses to its own value, so `csv` parses to `fileType.csv` |
| FileExtensions.TryParseNumber | CompressorService/FileParser.cs:24 | the decimal text `int.ToString` gives for an `int` parses to that number, so `0` parses to `fileType.csv` |
| FileExtensions.TryParseUpperCase | CompressorService/FileParser.cs:24 | names are matched case-sensitively: `CSV` does not parse |
| Images.ToString | CompressorService/Models/Image.cs:9-12 | the text has a `,`; what precedes the first `,` is the decimal id and what follows it is the URL verbatim (empty for `null`); the length is the sum of the parts plus one |
| Images.SplitToString | CompressorService/Models/Image.cs:11 | for a URL without a comma, splitting on `,` gives exactly the decimal id and the URL |
| Manifest.ParseRow | CompressorService/FileParser.cs:46-47 | a line without a comma never parses; the id is parsed first, so a bad id gives `int.Parse`'s format or overflow exception even when the comma is missing too, and the index exception occurs exactly when the id parses and there is no comma |
| Manifest.ParseRowFields | CompressorService/FileParser.cs:46-47 | a line parses exactly when it has a comma and the text before it is an `int`; the URL is the text up to the next comma, untrimmed, and later fields are dropped |
| Manifest.ParseDataLines | CompressorService/FileParser.cs:43-48 | for any line reader, line 0 is skipped; the loop fails exactly when some later line fails, with the exception of the first such line, and otherwise gives one record per later line in order |
| Manifest.ReadAllLines | CompressorService/FileParser.cs:42 | a path reads successfully exactly when it names a readable file, giving that file's lines, none holding a line break; any other path fails with the platform's exception for that path |
| Manifest.ParseCsvFile | CompressorService/FileParser.cs:39-51 | a path that cannot be read fails with the read exception before any line is parsed; a readable file gives exactly what `ParseCSV` gives on its lines |
| Manifest.ParseCsv | CompressorService/FileParser.cs:43-50 | line 0 is skipped; on success there are max(0, lines − 1) records and record k is line k + 1; the parse fails exactly when some data line fails, with the exception of the first failing line, and no partial list |
| Manifest.ParseFile | CompressorService/FileParser.cs:18-29 | no extension gives the `String.Remove` exception; the CSV reader is used exactly when the extension text parses as `fileType.csv`; every other extension goes to the Excel reader |
| Manifest.ParseFileDispatch | CompressorService/FileParser.cs:24-27 | for the two admitted manifest extensions, `.csv` goes to the CSV reader and `.xls` to the Excel reader |
| Manifest.ParseFileCsv | CompressorService/FileOperations.cs:19-30 | the copy in `FileOperations` behaves the same way: a path whose extension is `.csv` is read by the CSV reader |
| Manifest.ResultLines | CompressorService/FileOperations.cs:99-111 | a result manifest has one more line than there are images: the header, then image k's `ToString` on line k + 1 |
| Manifest.ManifestContent | CompressorService/FileOperations.cs:96-115 | one image gives the header and its line; a list gives the header and one line per element, in order; a `null` element or any other object gives a null dereference |
| Manifest.ManifestLineCount | CompressorService/FileOperations.cs:100-112 | when no URL holds a line break, the written text reads back as n + 1 lines for n images, so no line is dropped or merged |
| Manifest.CsvPathExtension | CompressorService/FileOperations.cs:84-85 | the manifest file's path ends in the extension `.csv`, whatever the directory |
| Manifest.CsvFileNameInjective | CompressorService/FileOperations.cs:84 | manifests written at different times get different names |
| Manifest.CreateCsvFile | CompressorService/FileOperations.cs:82-87 | a manifest is created exactly when its content can be built; it is named `<ticks>.csv` and appended to the file at directory + name |
| Manifest.ParseRowOfToString | CompressorService/Models/Image.cs:11 | a line written by `ToString` parses back to the same id and URL, when the URL has no comma |
| Manifest.ParseResultLines | CompressorService/FileOperations.cs:40-52 | parsing the lines of a result manifest gives every image back in order, when no URL has a comma or a line break |
| Manifest.ManifestRoundTrip | CompressorService/FileOperations.cs:96-115 | when no URL holds a comma or a line break and the file name is not already in use, writing a list of images to the manifest and reading it with `ParseFile` gives the same ids and URLs in the same order; a `null` URL comes back empty (a URL `a,b` would come back as `a`) |
| Manifest.ParseRawCsv | CompressorService/FileOperations.cs:123-129 | the upload stays on disk as `<ticks>.csv` in the directory given, whatever the parse gives, and no other file changes; the result is exactly what `ParseCSV` yields on the lines of the uploaded text |
| Manifest.OneImageIsOneElementList | CompressorService/FileOperations.cs:100-111 | writing one image and writing a one-element list give the same text |
| Compressor.NormalizeMime | ImageCompressor/ImageCompressor.cs:51-52 | `image/jpg` is never looked up as is; every other mime type is looked up unchanged |
| Compressor.SameEncoderName | ImageCompressor/ImageCompressor.cs:51-52 | two extensions share an encoder exactly when they are equal or are `jpg` and `jpeg` |
| Compressor.FirstMatch | ImageCompressor/ImageCompressor.cs:58-60 | the search stops at the first encoder with the mime type; every encoder before it has a different one |
| Compressor.EncoderFor | ImageCompressor/ImageCompressor.cs:48-63 | the encoder found is one of the installed encoders and has the normalised mime type; there is none exactly when no encoder has that mime type |
| Compressor.GetEncoderInfo | ImageCompressor/ImageCompressor.cs:48-63 | the loop returns the first encoder with the normalised mime type, or `null` |
| Compressor.Save | ImageCompressor/ImageCompressor.cs:18-41 | a quality outside 0..100 fails with the quality message; with an in-range quality every failure is "Exception while saving compressed image."; it succeeds exactly when the quality is in range, an encoder for `image/<extension>` is installed and the write with the first such encoder passes; a successful save writes to the path given, at the quality given, with that encoder |
| Compressor.QualityCheckedFirst | ImageCompressor/ImageCompressor.cs:20-21 | an out-of-range quality fails the same way on every platform: no encoder is looked up and nothing is written |
| Compressor.InnerExtension | ImageCompressor/ImageCompressor.cs:79-84 | PNG gives `png`, JPEG gives `jpeg`, any other format throws "Please provide valid Extension." |
| Compressor.CreateImageFromRawBytes | ImageCompressor/ImageCompressor.cs:72-93 | it succeeds exactly when the bytes decode to PNG or JPEG; the file is named `<ticks>.<extension>`; every failure, the unsupported-format one included, surfaces as "Error while creating image from raw image data." |
| Compressor.RawExtensionSupported | ImageCompressor/ImageCompressor.cs:79-86 | a raw image's extension is an `imageFormat` name and is the extension of its file name |
| Compressor.CreateImageFromImageUrl | ImageCompressor/ImageCompressor.cs:100-114 | it succeeds exactly when both the download and the decoding succeed; any failure surfaces as "Exception while downloading image from url." |
| Compressor.CompressImageFromUrl | ImageCompressor/ImageCompressor.cs:125-134 | a failed download fails with the download message; once the image is loaded, it succeeds exactly when saving it to directory + the URL's last segment at quality 90 succeeds, and otherwise fails with the save message; it returns that last segment |
| Compressor.UrlQualityIgnored | ImageCompressor/ImageCompressor.cs:131 | the URL overload gives the same result whatever quality is asked for |
| Compressor.CompressRawImage | ImageCompressor/ImageCompressor.cs:144-152 | a bad raw image is reported whatever the quality; an out-of-range quality is reported only once the image decodes; once decoded, it succeeds exactly when saving to `<ticks>.<png or jpeg>` in the directory succeeds, and an in-range failure is the save message; on success the save is at the quality given with the encoder for that extension |
| Controller.ValidateExtensionSuffix | CompressorService/Controllers/CompressorController.cs:36-42 | a URL passes the extension check exactly when it ends with `.` followed by a member name, case-sensitively |
| Controller.NoDotRefused | CompressorService/Controllers/CompressorController.cs:38-39 | a URL whose last segment has no `.` fails the extension check |
| Controller.SchemeLengthRejected | CompressorService/Controllers/CompressorController.cs:21-28 | with a parser that reports `http` and `https` only for text whose scheme they are, text without a `:`, or whose scheme is not 4 or 5 characters long, is not a valid URL |
| Controller.Compress | CompressorService/Controllers/CompressorController.cs:61-86 | a `null` image gives a null dereference; a URL that is not http(s) or lacks an image extension gives "Please provide valid URL or Extension."; otherwise the compressor's own result or exception is returned, called with the URL and an `imageFormat` name |
| Controller.RefusedBeforeCompressor | CompressorService/Controllers/CompressorController.cs:66-84 | with the same URI parser, a refused image gets the same answer whatever the compressor would do: the compressor is never called |
| Controller.CompressImage | CompressorService/Controllers/CompressorController.cs:96-107 | never throws; `Ok` exactly when compressing succeeds, with id 1 and the compressed path; otherwise `BadRequest` with the exception's message |
| Controller.CompressImageIgnoresId | CompressorService/Controllers/CompressorController.cs:101 | the single-image response does not depend on the id sent |
| Controller.CompressEach | CompressorService/Controllers/CompressorController.cs:123-138 | the loop records every element in order with its own id and its path or error, so one failure never stops the others; it throws exactly when an element is `null` |
| Controller.CompressImages | CompressorService/Controllers/CompressorController.cs:117-146 | a `null` or empty list gives "No image to compress in the list."; a `null` element escapes as a null dereference; otherwise `Ok` with one entry per image, in order, entry i being image i's id with its path or error |
| Controller.CompressImageFromFile | CompressorService/Controllers/CompressorController.cs:159-177 | a `null` path throws; a path that is not `.csv` or `.xls` gives "File format not supported." without being read; a read failure gives `BadRequest` with its message; a header-only manifest gives the empty-list `BadRequest`; otherwise one entry per parsed image, in order |
| Controller.ManifestExtensions | CompressorService/Controllers/CompressorController.cs:161 | a manifest is admitted exactly when its path ends in `.csv` or `.xls`, so `.xlsx` is refused |
| Controller.MisspeltSchemeRefused | CompressorService.Tests/CompressorServiceTests.cs:19-29 | with a parser that reports `http` and `https` faithfully, an `htt://` URL is refused with "Please provide valid URL or Extension." |
| Controller.MissingExtensionRefused | CompressorService.Tests/CompressorServiceTests.cs:31-41 | the test's http URL ending in `Pikachu_(Pokk%C3%A9n_Tournament)`, whose last segment has no extension, is refused whatever the URI parser |
| Controller.NoSchemeRefused | CompressorService.Tests/CompressorServiceTests.cs:131-132 | with a parser that reports `http` and `https` faithfully, `Invalid URL.` has no scheme and is refused |
| Controller.CsFileRefused | CompressorService.Tests/CompressorServiceTests.cs:144-151 | the test's path ending in `Book2.cs` is refused as a manifest |

## Left out

- Pixel work is left out: `Image.FromStream`, the encoders behind
  `Image.Save`, `WebClient.DownloadData` and `ImageCodecInfo.GetImageEncoders`.
  These are platform calls; they are parameters (`Compressor.Platform`) that
  may fail.
- `ParseXLS` is left out. It relies on an external Excel library, so it is
  the abstract `spreadsheet` function of `Manifest.FileSystem`.
- URI parsing is left out. `Uri.TryCreate` is abstract
  (`Controller.Host.absoluteUriScheme`). The lemmas that reject specific URLs
  assume only `Controller.RespectsScheme`: when the parser reports `http` or
  `https`, that is the lower-cased text before the first `:`, after leading
  white space. Other schemes
  are not constrained, since `Uri` reports `file` for `C:\x.jpg` and for a
  UNC path with no `:` at all.
- Character validation in paths is left out. `Path.GetExtension` and
  `Path.GetFileName` throw `ArgumentException` for characters Windows
  forbids in paths; that exception is not modelled.
- The messages of `File.ReadAllLines`'s exceptions are not reproduced.
  Which one a path gets (file not found, directory not found, a path format
  that is not supported, ...) depends on the disk and the platform, so it is
  the abstract `readError` function of `Manifest.FileSystem`.
- The disk is not modelled as bytes. Files hold text, so `File.WriteAllBytes`
  and the UTF-8 decoding in `File.ReadAllLines` are not modelled. A `null`
  byte array passed to `ParseRawCSV` or the raw-image `CompressImage` is not
  modelled either.
- Disk errors are not modelled. `Manifest.FileSystem.Append` always
  succeeds; write failures in `createCSVFile` and `ParseRawCSV` are left out.
- `Strings.ParseInt32` does not model `Int32.Parse`'s acceptance of
  trailing NUL characters.
- `FileExtensions.TryParse` trims only the Latin-1 white space
  (`Strings.IsWhiteSpace`); `String.Trim` also removes the Unicode white
  space beyond it.
- `DateTime.Now.Ticks` is not modelled. It is a parameter `ticks`, so two
  calls in the same tick collide on the file name. Only
  `Manifest.CsvFileNameInjective` (different ticks, different names) is
  proved.
- `HelloCompressor` is left out: it returns a constant greeting.
- Web API plumbing is left out: content negotiation, status codes and model
  binding. An escaped exception is the `Unhandled` response.
- Mutable-list aliasing is left out. `CompressImages` builds a new list and
  does not change its input, so lists are values.
- `Compressor.CompressImageFromUrl` sends a `null` URL to `Path.GetFileName`
  and `WebClient` in the source. The model takes a non-`null` URL. No caller
  in the source passes it a `null` URL.
- `ImageCompressorException` is left out: it has no logic of its own. It is
  represented by its message.

=== FILE: controller.dfy ===
/** `CompressorController`, the Web API front of the service: it validates
    image URLs and manifest paths, hands each image to the compressor and
    turns exceptions into `BadRequest` responses. The URI parser, the
    compressor and the disk are parameters (a `Host`). */
module Controller {
  import opened Wrappers
  import opened Strings
  import opened Paths
  import opened Images
  import FileExtensions
  import Manifest
  import Exceptions

  // ---------------------------------------------------------------------------
  // Environment and responses
  // ---------------------------------------------------------------------------

  /** What the controller calls out to: `Uri.TryCreate(url, UriKind.Absolute)`
      reduced to the scheme it reports (`None` when the text is not an
      absolute URI), the image compressor taking a URL and an extension, and
      the file system the manifest readers see. */
  datatype Host = Host(
    absoluteUriScheme: string -> Option<string>,
    compressor: (string, string) -> Result<string>,
    fs: Manifest.FileSystem)

  /** An action's result: `Ok(content)`, `BadRequest(message)`, or an exception
      that escaped the action (the framework answers it with an error). */
  datatype Response<T> = Ok(content: T) | BadRequest(message: string) | Unhandled(message: string)

  const InvalidInput := "Please provide valid URL or Extension."
  const NoImages := "No image to compress in the list."
  const FileFormatNotSupported := "File format not supported."

  /** The id every single-image response carries. */
  const SingleImageId: int32 := 1

  // ---------------------------------------------------------------------------
  // Validation
  // ---------------------------------------------------------------------------

  /** `validateURL`: an absolute URI whose scheme is `http` or `https`;
      `null` is not a URI. */
  predicate ValidateUrl(host: Host, url: Option<string>) {
    match url
    case None => false
    case Some(u) => host.absoluteUriScheme(u) == Some("http") || host.absoluteUriScheme(u) == Some("https")
  }

  /** `validateExtension(url, enumType)` for a non-`null` URL: the extension
      is not empty and, without its dot, is a member name. */
  predicate ValidateExtension(url: string, t: FileExtensions.EnumType) {
    var extension := Extension(url);
    extension != "" && FileExtensions.IsDefined(t, extension[1..])
  }

  /** A URL passes `validateExtension` exactly when it ends with `.` and a
      member name. */
  lemma ValidateExtensionSuffix(url: string, t: FileExtensions.EnumType)
    ensures ValidateExtension(url, t)
      <==> exists i :: 0 <= i < |FileExtensions.Names(t)| && EndsWith(url, "." + FileExtensions.Names(t)[i])
  {
    var names := FileExtensions.Names(t);
    var extension := Extension(url);
    if ValidateExtension(url, t) {
      var i :| 0 <= i < |names| && names[i] == extension[1..];
      assert extension == "." + names[i];
    }
    forall i | 0 <= i < |names| && EndsWith(url, "." + names[i])
      ensures ValidateExtension(url, t)
    {
      FileExtensions.NamesArePlain(t, i);
      ExtensionIsSuffix(url, names[i]);
      assert Extension(url)[1..] == names[i];
    }
  }

  /** A URL whose last segment has no `.` fails `validateExtension`. */
  lemma NoDotRefused(url: string, t: FileExtensions.EnumType)
    requires '.' !in FileName(url)
    ensures !ValidateExtension(url, t)
  {
    NoDotNoExtension(url);
  }

  /** What `Uri` promises when it reports `http` or `https`: the text, after
      leading white space, has a `:`, and the text before the first one is
      that scheme in some mix of cases. Other schemes are not constrained:
      `Uri` reports `file` for `C:\x.jpg` and for `\\server\share`. */
  ghost predicate RespectsScheme(absoluteUriScheme: string -> Option<string>) {
    forall url :: absoluteUriScheme(url) == Some("http") || absoluteUriScheme(url) == Some("https") ==>
      var s := TrimStart(url, IsWhiteSpace);
      ':' in s && AsciiLower(s[..IndexOf(s, ':')]) == absoluteUriScheme(url).value
  }

  /** ASCII lower case, as URI schemes are compared. */
  function AsciiLower(s: string): string {
    seq(|s|, i requires 0 <= i < |s| => if 'A' <= s[i] <= 'Z' then (s[i] as int + 32) as char else s[i])
  }

  /** With a parser that reports `http` and `https` faithfully, text without
      a `:`, or whose scheme is not four or five characters long, is not a
      valid URL. */
  lemma SchemeLengthRejected(host: Host, url: string)
    requires RespectsScheme(host.absoluteUriScheme)
    requires var s := TrimStart(url, IsWhiteSpace);
      ':' !in s || (|s[..IndexOf(s, ':')]| != 4 && |s[..IndexOf(s, ':')]| != 5)
    ensures !ValidateUrl(host, Some(url))
  {
  }

  // ---------------------------------------------------------------------------
  // Compressing one image
  // ---------------------------------------------------------------------------

  /** Whether `Compress` lets an image through to the compressor. */
  predicate Admitted(host: Host, image: Image) {
    ValidateUrl(host, image.imageURL) && ValidateExtension(image.imageURL.value, FileExtensions.ImageFormat)
  }

  /** `Compress(image)`: a `null` image is dereferenced; an image whose URL is
      not http(s) or whose extension is not an image format is refused;
      otherwise the compressor gets the URL and the extension without its dot,
      and its result or exception is passed on unchanged. */
  function Compress(host: Host, image: Option<Image>): (r: Result<string>)
    ensures image.None? ==> r == Failure(Exceptions.NullReference)
    ensures image.Some? && !Admitted(host, image.value) ==> r == Failure(InvalidInput)
    ensures image.Some? && Admitted(host, image.value) ==>
      var url := image.value.imageURL.value;
      && FileExtensions.IsDefined(FileExtensions.ImageFormat, Extension(url)[1..])
      && r == host.compressor(url, Extension(url)[1..])
  {
    match image
    case None => Failure(Exceptions.NullReference)
    case Some(img) =>
      if Admitted(host, img) then
        var url := img.imageURL.value;
        host.compressor(url, Extension(url)[1..])
      else Failure(InvalidInput)
  }

  /** A refused image never reaches the compressor: the result is the same
      whatever the compressor would have done. */
  lemma RefusedBeforeCompressor(h1: Host, h2: Host, image: Image)
    requires h1.absoluteUriScheme == h2.absoluteUriScheme
    requires !Admitted(h1, image)
    ensures Compress(h1, Some(image)) == Compress(h2, Some(image)) == Failure(InvalidInput)
  {
  }

  /** `CompressImage(image)`: the compressed path in an image with id 1, or
      `BadRequest` with the exception's message. */
  function CompressImage(host: Host, image: Option<Image>): (r: Response<Image>)
    ensures !r.Unhandled?
    ensures r.Ok? <==> Compress(host, image).Success?
    ensures r.Ok? ==> r.content.imageId == SingleImageId && r.content.imageURL == Some(Compress(host, image).value)
    ensures r.BadRequest? ==> r.message == Compress(host, image).message
  {
    match Compress(host, image)
    case Success(path) => Ok(Image(SingleImageId, Some(path)))
    case Failure(m) => BadRequest(m)
  }

  /** The single-image response does not depend on the id sent. */
  lemma CompressImageIgnoresId(host: Host, a: int32, b: int32, url: Option<string>)
    ensures CompressImage(host, Some(Image(a, url))) == CompressImage(host, Some(Image(b, url)))
  {
  }

  // ---------------------------------------------------------------------------
  // Compressing a list
  // ---------------------------------------------------------------------------

  /** What the batch records for an item: the compressed path, or the message
      of the exception compressing it threw. */
  function PathOrMessage(r: Result<string>): string {
    match r
    case Success(path) => path
    case Failure(message) => message
  }

  /** The entry the batch records for a non-`null` image: its own id, and
      the compressed path or the message of the exception. */
  function Recorded(host: Host, image: Image): Image {
    Image(image.imageId, Some(PathOrMessage(Compress(host, Some(image)))))
  }

  /** The loop of `CompressImages` over a non-empty list, for any way
      `compress` of compressing one image: each element is recorded in turn
      with its own id and its path or error. A `null` element is dereferenced
      outside the `try`, and that exception ends the loop. */
  method CompressEach(compress: Image -> Result<string>, list: seq<Option<Image>>) returns (r: Result<seq<Image>>)
    ensures r.Failure? <==> !Manifest.NoNulls(list)
    ensures r.Failure? ==> r.message == Exceptions.NullReference
    ensures r.Success? ==> |r.value| == |list| && forall i :: 0 <= i < |list| ==>
      r.value[i] == Image(list[i].value.imageId, Some(PathOrMessage(compress(list[i].value))))
  {
    var compressed: seq<Image> := [];
    var i := 0;
    while i < |list|
      invariant 0 <= i <= |list|
      invariant |compressed| == i
      invariant forall j :: 0 <= j < i ==>
        list[j].Some? && compressed[j] == Image(list[j].value.imageId, Some(PathOrMessage(compress(list[j].value))))
    {
      if list[i].None? {
        NullAt(list, i);
        return Failure(Exceptions.NullReference);
      }
      var path := PathOrMessage(compress(list[i].value));
      compressed := compressed + [Image(list[i].value.imageId, Some(path))];
      i := i + 1;
    }
    return Success(compressed);
  }

  /** `CompressImages(images)`: a `null` or empty list is refused; otherwise
      every image is compressed in turn and recorded with its own id and its
      path or error, so one failure never stops the others. A `null` element
      makes the action throw. */
  method CompressImages(host: Host, images: Option<seq<Option<Image>>>) returns (r: Response<seq<Image>>)
    ensures images.None? || images.value == [] ==> r == BadRequest(NoImages)
    ensures images.Some? && images.value != [] && !Manifest.NoNulls(images.value) ==> r == Unhandled(Exceptions.NullReference)
    ensures images.Some? && images.value != [] && Manifest.NoNulls(images.value) ==>
      && r.Ok?
      && |r.content| == |images.value|
      && forall i :: 0 <= i < |images.value| ==> r.content[i] == Recorded(host, images.value[i].value)
  {
    if images.None? || images.value == [] {
      return BadRequest(NoImages);
    }
    var each := CompressEach(image => Compress(host, Some(image)), images.value);
    match each
    case Failure(m) => r := Unhandled(m);
    case Success(compressed) => r := Ok(compressed);
  }

  /** A `null` at position `i` means the list has a `null`. */
  lemma NullAt(list: seq<Option<Image>>, i: nat)
    requires i < |list| && list[i].None?
    ensures !Manifest.NoNulls(list)
  {
  }

  // ---------------------------------------------------------------------------
  // Compressing a manifest
  // ---------------------------------------------------------------------------

  /** `CompressImageFromFile(fileURL)`: `validateExtension` dereferences a
      `null` path outside any `try`; a path that is not `.csv` or `.xls` is
      refused without being read; a manifest that cannot be read is a
      `BadRequest` with the reader's message; otherwise its images are
      compressed as a list, so a manifest with no data line is refused as an
      empty list. */
  method CompressImageFromFile(host: Host, fileUrl: Option<string>) returns (r: Response<seq<Image>>)
    ensures fileUrl.None? ==> r == Unhandled(Exceptions.NullReference)
    ensures fileUrl.Some? && !ValidateExtension(fileUrl.value, FileExtensions.FileType) ==> r == BadRequest(FileFormatNotSupported)
    ensures fileUrl.Some? && ValidateExtension(fileUrl.value, FileExtensions.FileType) ==>
      var parsed := Manifest.ParseFile(host.fs, fileUrl.value);
      && (parsed.Failure? ==> r == BadRequest(parsed.message))
      && (parsed.Success? && parsed.value == [] ==> r == BadRequest(NoImages))
      && (parsed.Success? && parsed.value != [] ==>
        && r.Ok?
        && |r.content| == |parsed.value|
        && forall i :: 0 <= i < |parsed.value| ==>
          r.content[i] == Recorded(host, parsed.value[i]))
  {
    if fileUrl.None? {
      return Unhandled(Exceptions.NullReference);
    }
    var path := fileUrl.value;
    if !ValidateExtension(path, FileExtensions.FileType) {
      return BadRequest(FileFormatNotSupported);
    }
    match Manifest.ParseFile(host.fs, path)
    case Failure(m) =>
      r := BadRequest(m);
    case Success(images) =>
      var list := Manifest.AsList(images);
      r := CompressImages(host, Some(list));
      r := match r
        case Unhandled(m) => BadRequest(m)
        case _ => r;
  }

  // ---------------------------------------------------------------------------
  // The service's own examples
  // ---------------------------------------------------------------------------

  /** A misspelt scheme such as `htt://...` is refused. */
  lemma MisspeltSchemeRefused(host: Host, rest: string)
    requires RespectsScheme(host.absoluteUriScheme)
    ensures CompressImage(host, Some(Image(1, Some("htt://" + rest)))) == BadRequest(InvalidInput)
  {
    var url := "htt://" + rest;
    assert !IsWhiteSpace(url[0]);
    assert TrimStart(url, IsWhiteSpace) == url;
    assert url[3] == ':' && ':' !in url[..3];
    IndexOfFirst(url, ':', 3);
    SchemeLengthRejected(host, url);
  }

  /** An http URL whose last segment has no extension is refused. */
  lemma MissingExtensionRefused(host: Host, directory: string, name: string)
    requires directory == "http://vignette4.wikia.nocookie.net/pokemon/images/7/75/"
    requires name == "Pikachu_(Pokk%C3%A9n_Tournament)"
    ensures CompressImage(host, Some(Image(1, Some(directory + name)))) == BadRequest(InvalidInput)
  {
    FileNameOfAppend(directory, name);
    NoDotRefused(directory + name, FileExtensions.ImageFormat);
  }

  /** A `.cs` file is not a manifest. */
  lemma CsFileRefused(path: string, directory: string)
    requires directory == "C:\\Users\\gdeepanshu\\Documents\\"
    requires path == directory + "Book2.cs"
    ensures !ValidateExtension(path, FileExtensions.FileType)
  {
    var base, name := directory + "Book2", "cs";
    assert path == base + "." + name;
    ExtensionOfAppend(base, name);
  }

  /** Text without a scheme, such as `Invalid URL.`, is refused. */
  lemma NoSchemeRefused(host: Host, url: string)
    requires RespectsScheme(host.absoluteUriScheme)
    requires url == "Invalid URL."
    ensures Compress(host, Some(Image(2, Some(url)))) == Failure(InvalidInput)
  {
    assert ':' !in url;
    SchemeLengthRejected(host, url);
  }

  /** Manifests are admitted by their last extension only, `.csv` or `.xls`:
      `.xlsx` is refused before any reader runs.
      The names come in through `csv` and `xls` rather than as literals in the
      ensures: literal arguments let the verifier unfold `Extension` without limit. */
  lemma ManifestExtensions(path: string, csv: string, xls: string)
    requires csv == "csv" && xls == "xls"
    ensures ValidateExtension(path, FileExtensions.FileType) <==> EndsWith(path, "." + csv) || EndsWith(path, "." + xls)
  {
    ValidateExtensionSuffix(path, FileExtensions.FileType);
    var names := FileExtensions.Names(FileExtensions.FileType);
    assert names[0] == csv && names[1] == xls;
  }
}

=== FILE: file_extensions.dfy ===
/** The two enums whose member names are the supported extensions, and the
    two `System.Enum` lookups the service performs on them: `IsDefined` by
    name and `TryParse`. */
module FileExtensions {
  import opened Wrappers
  import opened Strings
  import Exceptions

  /** `imageFormat` (image extensions) and `fileType` (manifest extensions). */
  datatype EnumType = ImageFormat | FileType

  /** Member names in declaration order; a member's value is its position. */
  function Names(t: EnumType): seq<string> {
    match t
    case ImageFormat => ["jpg", "jpeg", "png"]
    case FileType => ["csv", "xls"]
  }

  /** The value of `fileType.csv`. */
  const Csv := 0

  /** `Enum.IsDefined(typeof(t), name)` for a string: a case-sensitive match
      against a member name. */
  predicate IsDefined(t: EnumType, name: string) {
    name in Names(t)
  }

  /** The supported names: three image formats, `jpg` and `jpeg` both among
      them, and two manifest types, `xlsx` not among them. */
  lemma SupportedNames()
    ensures forall n :: IsDefined(ImageFormat, n) <==> n == "jpg" || n == "jpeg" || n == "png"
    ensures forall n :: IsDefined(FileType, n) <==> n == "csv" || n == "xls"
    ensures IsDefined(ImageFormat, "jpg") && IsDefined(ImageFormat, "jpeg")
    ensures !IsDefined(FileType, "xlsx") && !IsDefined(ImageFormat, "JPG")
  {
  }

  /** No member name is empty or holds a `.`, a comma, white space or a path separator. */
  lemma NamesArePlain(t: EnumType, i: nat)
    requires i < |Names(t)|
    ensures var n := Names(t)[i];
      n != "" && '.' !in n && ',' !in n && !IsDigit(n[0])
      && forall k :: 0 <= k < |n| ==> 'a' <= n[k] <= 'z'
  {
  }

  /** Bitwise OR of two non-negative numbers. */
  function BitOr(a: nat, b: nat): (r: nat)
    ensures (a == 0 ==> r == b) && (b == 0 ==> r == a)
    decreases a + b
  {
    if a == 0 then b
    else if b == 0 then a
    else 2 * BitOr(a / 2, b / 2) + (if a % 2 == 1 || b % 2 == 1 then 1 else 0)
  }

  /** The position of `name` in `names`. */
  function Find(names: seq<string>, name: string): (r: Option<nat>)
    ensures r.Some? ==> r.value < |names| && names[r.value] == name
    ensures r.None? <==> name !in names
  {
    if names == [] then None
    else if names[0] == name then Some(0)
    else match Find(names[1..], name)
      case None => None
      case Some(i) => Some(i + 1)
  }

  /** The OR of the values of a comma-separated list of member names, each
      trimmed; `None` as soon as one is not a member name. */
  function NamesValue(t: EnumType, parts: seq<string>): (r: Option<nat>)
    ensures r.Some? <==> forall i :: 0 <= i < |parts| ==> IsDefined(t, Trim(parts[i], IsWhiteSpace))
  {
    if parts == [] then Some(0)
    else
      match Find(Names(t), Trim(parts[0], IsWhiteSpace))
      case None => None
      case Some(v) =>
        match NamesValue(t, parts[1..])
        case None => None
        case Some(w) => Some(BitOr(v, w))
  }

  /** `Enum.TryParse<T>(value, out result)`: the value of the parsed member, or
      `None` when it returns false. After trimming, text that starts like a
      number is read as an `int` (any value is accepted; overflow fails, a
      format error falls back to names); otherwise it is a comma-separated list
      of member names whose values are OR-ed. */
  function TryParse(t: EnumType, value: string): (r: Option<int>)
    ensures Trim(value, IsWhiteSpace) == [] ==> r == None
  {
    var v := Trim(value, IsWhiteSpace);
    if v == [] then None
    else
      var numeric := if IsDigit(v[0]) || v[0] == '-' || v[0] == '+' then ParseInt32(v) else Failure(Exceptions.BadFormat);
      match numeric
      case Success(n) => Some(n)
      case Failure(m) =>
        if m == Exceptions.Int32Overflow then None else NamesValue(t, Split(v, ','))
  }

  /** A single member name, trimmed of nothing, is that member's value. */
  lemma NamesValueOfName(t: EnumType, i: nat)
    requires i < |Names(t)|
    ensures NamesValue(t, [Names(t)[i]]) == Some(i)
  {
    var n := Names(t)[i];
    NamesArePlain(t, i);
    TrimUntrimmed(n, IsWhiteSpace);
    assert Find(Names(t), n) == Some(i);
    assert [n][1..] == [];
  }

  /** Every member name parses to its own value. */
  lemma TryParseName(t: EnumType, i: nat)
    requires i < |Names(t)|
    ensures TryParse(t, Names(t)[i]) == Some(i)
  {
    var n := Names(t)[i];
    NamesArePlain(t, i);
    TrimUntrimmed(n, IsWhiteSpace);
    SplitNoSeparator(n, ',');
    NamesValueOfName(t, i);
    assert Exceptions.BadFormat != Exceptions.Int32Overflow;
  }

  /** Text that reads as a number parses to that number, whether or not a
      member has that value: a file named `list.0` counts as `csv`. */
  lemma TryParseNumber(t: EnumType, n: int32)
    ensures TryParse(t, IntToDecimal(n)) == Some(n)
  {
    var s := IntToDecimal(n);
    assert !IsWhiteSpace(s[0]) && !IsWhiteSpace(s[|s| - 1]);
    TrimUntrimmed(s, IsWhiteSpace);
    ParseInt32OfIntToDecimal(n);
  }

  /** Names are matched case-sensitively: `CSV` is not `csv`.
      The text comes in through `s` rather than as a literal in the ensures:
      a literal argument lets the verifier unfold `TryParse` on it without limit. */
  lemma TryParseUpperCase(s: string)
    requires s == "CSV"
    ensures TryParse(FileType, s) == None
  {
    TrimUntrimmed(s, IsWhiteSpace);
    SplitNoSeparator(s, ',');
    assert Find(Names(FileType), s) == None;
    assert Exceptions.BadFormat != Exceptions.Int32Overflow;
  }
}

=== FILE: image.dfy ===
/** The `Image` record exchanged by every endpoint and written to result
    manifests: an id and a URL (or, after compression, the compressed file's
    name or the reason it failed). */
module Images {
  import opened Wrappers
  import opened Strings

  /** `Image { imageId, imageURL }`; `imageURL` may be `null`. */
  datatype Image = Image(imageId: int32, imageURL: Option<string>)

  /** The URL as string concatenation reads it: `null` contributes nothing. */
  function UrlText(image: Image): string {
    image.imageURL.GetOr("")
  }

  /** `Image.ToString()`: the id in decimal, a comma, then the URL. The id is
      everything before the first comma and the URL everything after it. */
  function ToString(image: Image): (r: string)
    ensures ',' in r
    ensures r[..IndexOf(r, ',')] == IntToDecimal(image.imageId)
    ensures r[IndexOf(r, ',') + 1..] == UrlText(image)
    ensures |r| == |IntToDecimal(image.imageId)| + 1 + |UrlText(image)|
  {
    var id := IntToDecimal(image.imageId);
    var r := id + "," + UrlText(image);
    assert r[|id|] == ',';
    assert ',' !in r[..|id|] by { assert r[..|id|] == id; }
    assert IndexOf(r, ',') == |id| by { IndexOfFirst(r, ',', |id|); }
    r
  }

  /** A URL without commas makes `ToString` split into exactly two fields:
      the decimal id and the URL. */
  lemma {:induction false} SplitToString(image: Image)
    requires ',' !in UrlText(image)
    ensures Split(ToString(image), ',') == [IntToDecimal(image.imageId), UrlText(image)]
  {
    var id := IntToDecimal(image.imageId);
    assert ',' !in id;
    SplitAtFirst(id, ',', UrlText(image));
    SplitNoSeparator(UrlText(image), ',');
  }

  /** No line break appears in `ToString` unless the URL has one. */
  lemma ToStringNoLineBreak(image: Image)
    requires NoLineBreak(UrlText(image))
    ensures NoLineBreak(ToString(image))
  {
    var id := IntToDecimal(image.imageId);
    assert ToString(image) == id + "," + UrlText(image);
  }
}

=== FILE: image_compressor.dfy ===
/** The `ImageCompressor` library: download or decode an image, pick the
    encoder for its mime type, and save it at a given JPEG/PNG quality.
    Downloading, decoding and encoding pixels belong to the platform and are
    parameters of the model; what is modelled is the library's own decisions:
    the quality guard, the mime type and encoder choice, the output file name
    and which exception message reaches the caller. */
module Compressor {
  import opened Wrappers
  import opened Strings
  import opened Paths
  import FileExtensions

  // ---------------------------------------------------------------------------
  // Messages of the library's own exception
  // ---------------------------------------------------------------------------

  const QualityOutOfRange := "quality must be between 0 and 100."
  const SaveFailed := "Exception while saving compressed image."
  const DownloadFailed := "Exception while downloading image from url."
  const RawImageFailed := "Error while creating image from raw image data."
  /** Thrown for a raw image that is neither PNG nor JPEG; always replaced by `RawImageFailed`. */
  const InvalidExtension := "Please provide valid Extension."

  // ---------------------------------------------------------------------------
  // The platform
  // ---------------------------------------------------------------------------

  newtype byte = x: int | 0 <= x < 256
  type Bytes = seq<byte>

  /** An installed image encoder (`ImageCodecInfo`); only its mime type is consulted. */
  datatype Codec = Codec(codecName: string, mimeType: string)

  /** `Image.RawFormat`: the format the image was decoded from. */
  datatype RawFormat = Png | Jpeg | OtherFormat(guid: string)

  /** A decoded image: its source format and its (opaque) pixel data. */
  datatype Bitmap = Bitmap(rawFormat: RawFormat, pixels: Bytes)

  /** One `img.Save(path, codec, { Quality = quality })` call. */
  datatype SaveRequest = SaveRequest(path: string, image: Bitmap, codec: Codec, quality: int32)

  /** What the library gets from the .NET platform: the installed encoders in
      `GetImageEncoders()` order, `WebClient.DownloadData`, `Image.FromStream`
      and the encoder behind `Image.Save`. Each call may throw. */
  datatype Platform = Platform(
    encoders: seq<Codec>,
    download: string -> Result<Bytes>,
    decode: Bytes -> Result<Bitmap>,
    save: SaveRequest -> Outcome)

  // ---------------------------------------------------------------------------
  // Encoder lookup
  // ---------------------------------------------------------------------------

  /** The mime type `Save` asks for: `image/` followed by the extension. */
  function MimeType(extension: string): string {
    "image/" + extension
  }

  /** `GetEncoderInfo` looks `image/jpg` up as `image/jpeg`; every other mime
      type is looked up as given. */
  function NormalizeMime(mimeType: string): (r: string)
    ensures r != "image/jpg"
    ensures mimeType != "image/jpg" ==> r == mimeType
  {
    if mimeType == "image/jpg" then "image/jpeg" else mimeType
  }

  /** `jpg` and `jpeg` share an encoder; any other two extensions are looked
      up under different mime types. */
  lemma SameEncoderName(a: string, b: string)
    ensures NormalizeMime(MimeType(a)) == NormalizeMime(MimeType(b))
      <==> a == b || (a == "jpg" && b == "jpeg") || (a == "jpeg" && b == "jpg")
  {
    var prefix := "image/";
    assert MimeType(a)[..|prefix|] == prefix && MimeType(a)[|prefix|..] == a;
    assert MimeType(b)[..|prefix|] == prefix && MimeType(b)[|prefix|..] == b;
    if MimeType(a) == "image/jpg" {
      assert a == "jpg";
    }
    if MimeType(b) == "image/jpg" {
      assert b == "jpg";
    }
    if a == "jpg" {
      assert MimeType(a) == "image/jpg";
    }
    if b == "jpg" {
      assert MimeType(b) == "image/jpg";
    }
    if a == "jpeg" {
      assert MimeType(a) == "image/jpeg";
    }
    if b == "jpeg" {
      assert MimeType(b) == "image/jpeg";
    }
  }

  /** The position of the first encoder for `mimeType`, or `|encoders|`. */
  function FirstMatch(encoders: seq<Codec>, mimeType: string): (i: nat)
    ensures i <= |encoders|
    ensures forall j :: 0 <= j < i ==> encoders[j].mimeType != mimeType
    ensures i < |encoders| ==> encoders[i].mimeType == mimeType
  {
    if encoders == [] || encoders[0].mimeType == mimeType then 0
    else 1 + FirstMatch(encoders[1..], mimeType)
  }

  /** The encoder `GetEncoderInfo(mimeType)` returns: the first whose mime type
      equals the normalised one, or `null` when none does. */
  function EncoderFor(encoders: seq<Codec>, mimeType: string): (r: Option<Codec>)
    ensures r.None? <==> forall j :: 0 <= j < |encoders| ==> encoders[j].mimeType != NormalizeMime(mimeType)
    ensures r.Some? ==> r.value in encoders && r.value.mimeType == NormalizeMime(mimeType)
  {
    var i := FirstMatch(encoders, NormalizeMime(mimeType));
    if i < |encoders| then Some(encoders[i]) else None
  }

  /** `GetEncoderInfo`: the loop over `GetImageEncoders()` that returns on the
      first match. */
  method GetEncoderInfo(encoders: seq<Codec>, mimeType: string) returns (codec: Option<Codec>)
    ensures codec == EncoderFor(encoders, mimeType)
  {
    var mime := mimeType;
    if mime == "image/jpg" {
      mime := "image/jpeg";
    }
    var i := 0;
    while i < |encoders|
      invariant 0 <= i <= |encoders|
      invariant forall j :: 0 <= j < i ==> encoders[j].mimeType != mime
    {
      if encoders[i].mimeType == mime {
        FirstMatchAt(encoders, mime, i);
        return Some(encoders[i]);
      }
      i := i + 1;
    }
    FirstMatchAt(encoders, mime, |encoders|);
    return None;
  }

  /** `FirstMatch` is pinned down by its two properties. */
  lemma FirstMatchAt(encoders: seq<Codec>, mimeType: string, i: nat)
    requires i <= |encoders|
    requires forall j :: 0 <= j < i ==> encoders[j].mimeType != mimeType
    requires i < |encoders| ==> encoders[i].mimeType == mimeType
    ensures FirstMatch(encoders, mimeType) == i
  {
  }

  // ---------------------------------------------------------------------------
  // Saving
  // ---------------------------------------------------------------------------

  /** `Save(path, img, extension, quality)`: the quality is checked before
      anything else; then the encoder for `image/<extension>` is looked up and
      the image saved with it. `Image.Save` rejects a `null` encoder, and any
      exception while saving is reported as `SaveFailed`. On success, the
      save that was made. */
  function Save(platform: Platform, path: string, image: Bitmap, extension: string, quality: int32): (r: Result<SaveRequest>)
    ensures (quality < 0 || quality > 100) ==> r == Failure(QualityOutOfRange)
    ensures 0 <= quality <= 100 && EncoderFor(platform.encoders, MimeType(extension)).None? ==> r == Failure(SaveFailed)
    ensures r.Failure? ==> r.message == QualityOutOfRange || r.message == SaveFailed
    ensures 0 <= quality <= 100 && r.Failure? ==> r.message == SaveFailed
    ensures r.Success? <==>
      && 0 <= quality <= 100
      && EncoderFor(platform.encoders, MimeType(extension)).Some?
      && platform.save(SaveRequest(path, image, EncoderFor(platform.encoders, MimeType(extension)).value, quality)).Pass?
    ensures r.Success? ==>
      && r.value.path == path && r.value.image == image && r.value.quality == quality
      && r.value.codec == EncoderFor(platform.encoders, MimeType(extension)).value
      && r.value.codec in platform.encoders
      && r.value.codec.mimeType == NormalizeMime(MimeType(extension))
      && platform.save(r.value).Pass?
  {
    if quality < 0 || quality > 100 then Failure(QualityOutOfRange)
    else
      match EncoderFor(platform.encoders, MimeType(extension))
      case None => Failure(SaveFailed)
      case Some(codec) =>
        var request := SaveRequest(path, image, codec, quality);
        if platform.save(request).Pass? then Success(request) else Failure(SaveFailed)
  }

  /** An out-of-range quality fails the same way on every platform: no
      encoder is looked up and nothing is saved. */
  lemma QualityCheckedFirst(p1: Platform, p2: Platform, path: string, image: Bitmap, extension: string, quality: int32)
    requires quality < 0 || quality > 100
    ensures Save(p1, path, image, extension, quality) == Save(p2, path, image, extension, quality)
  {
  }

  // ---------------------------------------------------------------------------
  // Loading
  // ---------------------------------------------------------------------------

  /** An image ready to be saved, with the name and extension derived for it. */
  datatype Created = Created(image: Bitmap, fileName: string, extension: string)

  /** The extension a raw image is saved under: `png` for PNG, `jpeg` for
      JPEG, none for any other format. */
  function FormatExtension(format: RawFormat): Option<string> {
    match format
    case Png => Some("png")
    case Jpeg => Some("jpeg")
    case OtherFormat(_) => None
  }

  /** `CreateImageFromRawBytes(rawImage, out fileName, out extension)` at time
      `ticks`: decode the bytes, take the extension from the format and name
      the file `<ticks>.<extension>`. Every exception inside, the
      unsupported-format one included, is replaced by `RawImageFailed`. */
  function CreateImageFromRawBytes(platform: Platform, raw: Bytes, ticks: nat): (r: Result<Created>)
    ensures r.Failure? ==> r.message == RawImageFailed
    ensures r.Success? <==> platform.decode(raw).Success? && FormatExtension(platform.decode(raw).value.rawFormat).Some?
    ensures r.Success? ==>
      && r.value.image == platform.decode(raw).value
      && r.value.extension == FormatExtension(r.value.image.rawFormat).value
      && r.value.fileName == IntToDecimal(ticks) + "." + r.value.extension
  {
    match platform.decode(raw)
    case Failure(_) => Failure(RawImageFailed)
    case Success(image) =>
      match InnerExtension(image.rawFormat)
      case Failure(_) => Failure(RawImageFailed)
      case Success(extension) => Success(Created(image, IntToDecimal(ticks) + "." + extension, extension))
  }

  /** The extension chosen inside the `try`: an unsupported format throws
      `InvalidExtension`, which the `catch` then replaces. */
  function InnerExtension(format: RawFormat): (r: Result<string>)
    ensures r.Failure? <==> FormatExtension(format).None?
    ensures r.Failure? ==> r.message == InvalidExtension
    ensures r.Success? ==> r.value == FormatExtension(format).value
  {
    match FormatExtension(format)
    case Some(e) => Success(e)
    case None => Failure(InvalidExtension)
  }

  /** The extensions a raw image can get are image-format names, and the file
      name carries that extension. */
  lemma RawExtensionSupported(platform: Platform, raw: Bytes, ticks: nat)
    requires CreateImageFromRawBytes(platform, raw, ticks).Success?
    ensures var c := CreateImageFromRawBytes(platform, raw, ticks).value;
      FileExtensions.IsDefined(FileExtensions.ImageFormat, c.extension)
      && Extension(c.fileName) == "." + c.extension
  {
    var c := CreateImageFromRawBytes(platform, raw, ticks).value;
    var names := FileExtensions.Names(FileExtensions.ImageFormat);
    assert c.extension == names[1] || c.extension == names[2];
    ExtensionOfAppend(IntToDecimal(ticks), c.extension);
  }

  /** `CreateImageFromImageURL(url)`: download the bytes and decode them; any
      exception in either is reported as `DownloadFailed`. */
  function CreateImageFromImageUrl(platform: Platform, url: string): (r: Result<Bitmap>)
    ensures r.Failure? ==> r.message == DownloadFailed
    ensures r.Success? <==> platform.download(url).Success? && platform.decode(platform.download(url).value).Success?
    ensures r.Success? ==> r.value == platform.decode(platform.download(url).value).value
  {
    match platform.download(url)
    case Failure(_) => Failure(DownloadFailed)
    case Success(bytes) =>
      match platform.decode(bytes)
      case Failure(_) => Failure(DownloadFailed)
      case Success(image) => Success(image)
  }

  // ---------------------------------------------------------------------------
  // The two entry points
  // ---------------------------------------------------------------------------

  /** A compressed image: the file name returned to the caller and the save made. */
  datatype Compressed = Compressed(fileName: string, saved: SaveRequest)

  /** The quality the URL overload always saves at. */
  const UrlQuality: int32 := 90

  /** `CompressImage(imageURL, extension, quality, compressedImageFilePath)`:
      the file keeps the URL's last segment as its name and goes into the
      given directory; the `quality` argument is not used. */
  function CompressImageFromUrl(platform: Platform, url: string, extension: string, quality: int32, directory: string): (r: Result<Compressed>)
    ensures r.Failure? ==> r.message == DownloadFailed || r.message == SaveFailed
    ensures r.Success? ==>
      && r.value.fileName == FileName(url)
      && r.value.saved.path == directory + FileName(url)
      && r.value.saved.quality == UrlQuality
      && r.value.saved.codec.mimeType == NormalizeMime(MimeType(extension))
      && CreateImageFromImageUrl(platform, url).Success?
      && r.value.saved.image == CreateImageFromImageUrl(platform, url).value
    ensures CreateImageFromImageUrl(platform, url).Failure? ==> r == Failure(DownloadFailed)
    ensures CreateImageFromImageUrl(platform, url).Success? ==>
      var saved := Save(platform, directory + FileName(url), CreateImageFromImageUrl(platform, url).value, extension, UrlQuality);
      && (r.Success? <==> saved.Success?)
      && (r.Success? ==> r.value.saved == saved.value)
      && (r.Failure? ==> r.message == SaveFailed)
  {
    var fileName := FileName(url);
    match CreateImageFromImageUrl(platform, url)
    case Failure(m) => Failure(m)
    case Success(image) =>
      match Save(platform, directory + fileName, image, extension, UrlQuality)
      case Failure(m) => Failure(m)
      case Success(saved) => Success(Compressed(fileName, saved))
  }

  /** The URL overload's result does not depend on the quality asked for. */
  lemma UrlQualityIgnored(platform: Platform, url: string, extension: string, q1: int32, q2: int32, directory: string)
    ensures CompressImageFromUrl(platform, url, extension, q1, directory) == CompressImageFromUrl(platform, url, extension, q2, directory)
  {
  }

  /** `CompressImage(rawImage, quality, compressedImageFilePath)` at time
      `ticks`: the image is decoded before the quality is checked, so a bad
      image is reported whatever the quality. */
  function CompressRawImage(platform: Platform, raw: Bytes, quality: int32, directory: string, ticks: nat): (r: Result<Compressed>)
    ensures r.Failure? ==> r.message == RawImageFailed || r.message == QualityOutOfRange || r.message == SaveFailed
    ensures CreateImageFromRawBytes(platform, raw, ticks).Failure? ==> r == Failure(RawImageFailed)
    ensures CreateImageFromRawBytes(platform, raw, ticks).Success? && (quality < 0 || quality > 100) ==> r == Failure(QualityOutOfRange)
    ensures r.Success? ==>
      var c := CreateImageFromRawBytes(platform, raw, ticks).value;
      && r.value.fileName == c.fileName
      && r.value.saved.path == directory + c.fileName
      && r.value.saved.quality == quality
      && r.value.saved.codec.mimeType == MimeType(c.extension)
    ensures CreateImageFromRawBytes(platform, raw, ticks).Success? ==>
      var c := CreateImageFromRawBytes(platform, raw, ticks).value;
      var saved := Save(platform, directory + c.fileName, c.image, c.extension, quality);
      && (r.Success? <==> saved.Success?)
      && (r.Success? ==> r.value.saved == saved.value)
      && (0 <= quality <= 100 && r.Failure? ==> r.message == SaveFailed)
  {
    match CreateImageFromRawBytes(platform, raw, ticks)
    case Failure(m) => Failure(m)
    case Success(created) =>
      match Save(platform, directory + created.fileName, created.image, created.extension, quality)
      case Failure(m) => Failure(m)
      case Success(saved) =>
        SupportedMimeUnchanged(created.extension);
        Success(Compressed(created.fileName, saved))
  }

  /** The mime types of the raw-image extensions are looked up unchanged. */
  lemma SupportedMimeUnchanged(extension: string)
    requires extension == "png" || extension == "jpeg"
    ensures NormalizeMime(MimeType(extension)) == MimeType(extension)
  {
    assert MimeType(extension)[6..] == extension;
  }
}

=== FILE: manifest.dfy ===
/** Image manifests: reading a CSV or spreadsheet list of images
    (`FileParser.ParseFile`, whose code `FileOperations` repeats verbatim) and
    writing a CSV list of results (`FileOperations.createCSVFile`,
    `FileOperations.ParseRawCSV`). */
module Manifest {
  import opened Wrappers
  import opened Strings
  import opened Paths
  import opened Images
  import FileExtensions
  import Exceptions

  // ---------------------------------------------------------------------------
  // Files
  // ---------------------------------------------------------------------------

  /** What the service sees of the disk: the text of each readable file by
      path, the message of the exception reading any other path throws
      (`FileNotFoundException`, `DirectoryNotFoundException`,
      `NotSupportedException` for a path with a scheme, ...), and what the
      spreadsheet reader returns for a path. */
  datatype FileSystem = FileSystem(
    files: map<string, string>,
    readError: string -> string,
    spreadsheet: string -> Result<seq<Image>>)
  {

    /** `File.WriteAllBytes(path, ...)`: the file now holds exactly `content`. */
    function Write(path: string, content: string): FileSystem {
      this.(files := files[path := content])
    }

    /** `File.AppendAllText(path, content)`: `content` goes after whatever the file held. */
    function Append(path: string, content: string): FileSystem {
      this.(files := files[path := (if path in files then files[path] else "") + content])
    }
  }

  /** `File.ReadAllLines(path)`: a readable file gives its lines, none of
      which holds a line break; any other path throws the platform's
      exception for it. */
  function ReadAllLines(fs: FileSystem, path: string): (r: Result<seq<string>>)
    ensures r.Success? <==> path in fs.files
    ensures r.Failure? ==> r.message == fs.readError(path)
    ensures r.Success? ==> r.value == SplitLines(fs.files[path])
    ensures r.Success? ==> forall i :: 0 <= i < |r.value| ==> NoLineBreak(r.value[i])
  {
    if path in fs.files then Success(SplitLines(fs.files[path])) else Failure(fs.readError(path))
  }

  // ---------------------------------------------------------------------------
  // Reading
  // ---------------------------------------------------------------------------

  /** One data line: `imageId = int.Parse(fields[0])`, then
      `imageURL = fields[1]` of `line.Split(',')`. The id is parsed first, so
      a bad id is reported even when the comma is missing too. */
  function ParseRow(line: string): (r: Result<Image>)
    ensures ',' !in line ==> r.Failure?
    ensures r.Failure? ==> r.message in {Exceptions.BadFormat, Exceptions.Int32Overflow, Exceptions.IndexOutOfRange}
    ensures ParseInt32(UpTo(line, ',')).Failure? ==> r == Failure(ParseInt32(UpTo(line, ',')).message)
    ensures ParseInt32(UpTo(line, ',')).Success? && ',' !in line ==> r == Failure(Exceptions.IndexOutOfRange)
  {
    var fields := Split(line, ',');
    SplitFirstFields(line, ',');
    var id :- ParseInt32(fields[0]);
    if |fields| < 2 then Failure(Exceptions.IndexOutOfRange)
    else Success(Image(id, Some(fields[1])))
  }

  /** A data line parses exactly when it has a comma and the text before the
      first comma is an `int`; the id is that `int` and the URL is the text
      between the first comma and the next one (or the end), untrimmed; any
      further fields are dropped. */
  lemma ParseRowFields(line: string)
    ensures var r := ParseRow(line);
      && (r.Success? <==> ',' in line && ParseInt32(line[..IndexOf(line, ',')]).Success?)
      && (r.Success? ==>
        && r.value.imageId == ParseInt32(line[..IndexOf(line, ',')]).value
        && r.value.imageURL == Some(UpTo(line[IndexOf(line, ',') + 1..], ',')))
  {
    SplitFirstFields(line, ',');
  }

  /** The loop of `ParseCSV` for any way `parse` of reading one data line:
      line 0 is skipped; the first line that fails ends the loop with its
      exception, otherwise every later line gives one record, in order. */
  function ParseDataLines<T>(lines: seq<string>, parse: string -> Result<T>): (r: Result<seq<T>>)
    ensures r.Success? ==> |r.value| == if lines == [] then 0 else |lines| - 1
    ensures r.Success? ==> forall k :: 0 <= k < |r.value| ==> Success(r.value[k]) == parse(lines[k + 1])
    ensures r.Failure? ==>
      exists k ::
        && 1 <= k < |lines|
        && parse(lines[k]).Failure? && r.message == parse(lines[k]).message
        && forall j :: 1 <= j < k ==> parse(lines[j]).Success?
    ensures r.Failure? <==> exists k :: 1 <= k < |lines| && parse(lines[k]).Failure?
  {
    if lines == [] then Success([])
    else
      var rs := seq(|lines| - 1, i requires 0 <= i < |lines| - 1 => parse(lines[i + 1]));
      var r := Collect(rs);
      if r.Failure? then
        var k := FirstFailure(rs);
        assert forall j :: 1 <= j < k + 1 ==> rs[j - 1] == parse(lines[j]);
        r
      else
        assert forall k :: 1 <= k < |lines| ==> rs[k - 1] == parse(lines[k]);
        r
  }

  /** `ParseCSV` on the lines of a file: line 0 is a header and is skipped
      whatever it holds; record `k` comes from line `k + 1`. The first line
      that fails fails the whole parse with its exception, and no partial
      list is returned. */
  function ParseCsv(lines: seq<string>): (r: Result<seq<Image>>)
    ensures r.Success? ==> |r.value| == if lines == [] then 0 else |lines| - 1
    ensures r.Success? ==> forall k :: 0 <= k < |r.value| ==> Success(r.value[k]) == ParseRow(lines[k + 1])
    ensures r.Failure? ==>
      exists k ::
        && 1 <= k < |lines|
        && ParseRow(lines[k]).Failure? && r.message == ParseRow(lines[k]).message
        && forall j :: 1 <= j < k ==> ParseRow(lines[j]).Success?
    ensures r.Failure? <==> exists k :: 1 <= k < |lines| && ParseRow(lines[k]).Failure?
  {
    ParseDataLines(lines, ParseRow)
  }

  /** `ParseCSV(path)`: read the file's lines, then parse them. */
  function ParseCsvFile(fs: FileSystem, path: string): (r: Result<seq<Image>>)
    ensures path !in fs.files ==> r == Failure(fs.readError(path))
    ensures path in fs.files ==> r == ParseCsv(SplitLines(fs.files[path]))
  {
    var lines :- ReadAllLines(fs, path);
    ParseCsv(lines)
  }

  /** `ParseFile(path)`: `extension.Remove(0, 1)` fails on a path without an
      extension; otherwise the CSV reader is used exactly when the extension
      parses as `fileType.csv`, and the spreadsheet reader for anything else. */
  function ParseFile(fs: FileSystem, path: string): (r: Result<seq<Image>>)
    ensures Extension(path) == "" ==> r == Failure(Exceptions.RemoveOutOfRange)
    ensures Extension(path) != "" && FileExtensions.TryParse(FileExtensions.FileType, Extension(path)[1..]) == Some(FileExtensions.Csv)
      ==> r == ParseCsvFile(fs, path)
    ensures Extension(path) != "" && FileExtensions.TryParse(FileExtensions.FileType, Extension(path)[1..]) != Some(FileExtensions.Csv)
      ==> r == fs.spreadsheet(path)
  {
    var extension := Extension(path);
    if extension == "" then Failure(Exceptions.RemoveOutOfRange)
    else
      match FileExtensions.TryParse(FileExtensions.FileType, extension[1..])
      case Some(v) =>
        if v == FileExtensions.Csv then ParseCsvFile(fs, path) else fs.spreadsheet(path)
      case None => fs.spreadsheet(path)
  }

  /** For the two manifest extensions the controller admits, `csv` goes to the
      CSV reader and `xls` to the spreadsheet reader. */
  lemma ParseFileDispatch(fs: FileSystem, path: string, name: string)
    requires FileExtensions.IsDefined(FileExtensions.FileType, name)
    requires Extension(path) == "." + name
    ensures name == "csv" ==> ParseFile(fs, path) == ParseCsvFile(fs, path)
    ensures name == "xls" ==> ParseFile(fs, path) == fs.spreadsheet(path)
  {
    assert ("." + name)[1..] == name;
    if name == "csv" {
      FileExtensions.TryParseName(FileExtensions.FileType, 0);
    } else {
      FileExtensions.TryParseName(FileExtensions.FileType, 1);
    }
  }

  /** A path ending in `.csv` is read by the CSV reader. */
  lemma ParseFileCsv(fs: FileSystem, path: string)
    requires Extension(path) == ".csv"
    ensures ParseFile(fs, path) == ParseCsvFile(fs, path)
  {
    var name := FileExtensions.Names(FileExtensions.FileType)[0];
    assert Extension(path)[1..] == name;
    FileExtensions.TryParseName(FileExtensions.FileType, 0);
  }

  // ---------------------------------------------------------------------------
  // Writing
  // ---------------------------------------------------------------------------

  /** The header line of a result manifest. */
  const Header := "ImageId,CompressedImageURL"

  /** The argument of `createCSVFile(object, path)`: one image, a list of
      images (elements may be `null`), or anything else, `null` included. */
  datatype ManifestSource = OneImage(image: Image) | ImageList(images: seq<Option<Image>>) | Unrecognized

  /** The lines of a result manifest: the header, then one `ToString` line per image. */
  function ResultLines(images: seq<Image>): (lines: seq<string>)
    ensures |lines| == |images| + 1 && lines[0] == Header
    ensures forall k :: 0 <= k < |images| ==> lines[k + 1] == ToString(images[k])
  {
    [Header] + seq(|images|, k requires 0 <= k < |images| => ToString(images[k]))
  }

  /** Whether a list has no `null` element. */
  predicate NoNulls(images: seq<Option<Image>>) {
    forall i :: 0 <= i < |images| ==> images[i].Some?
  }

  /** The elements of a list without `null`s. */
  function Present(images: seq<Option<Image>>): (r: seq<Image>)
    requires NoNulls(images)
    ensures |r| == |images| && forall i :: 0 <= i < |r| ==> images[i] == Some(r[i])
  {
    seq(|images|, i requires 0 <= i < |images| => images[i].value)
  }

  /** The text `createCSVFile(object, path)` builds: an `Image` gives the header
      and its line; a list gives the header and a line per element, in order;
      a `null` element, a `null` argument or any other object dereferences
      `null`. */
  function ManifestContent(source: ManifestSource): (r: Result<string>)
    ensures source.OneImage? ==> r == Success(JoinLines(ResultLines([source.image])))
    ensures source.ImageList? && NoNulls(source.images) ==> r == Success(JoinLines(ResultLines(Present(source.images))))
    ensures source.ImageList? && !NoNulls(source.images) ==> r == Failure(Exceptions.NullReference)
    ensures source.Unrecognized? ==> r == Failure(Exceptions.NullReference)
  {
    match source
    case OneImage(image) => Success(JoinLines(ResultLines([image])))
    case ImageList(images) =>
      if NoNulls(images) then Success(JoinLines(ResultLines(Present(images))))
      else Failure(Exceptions.NullReference)
    case Unrecognized => Failure(Exceptions.NullReference)
  }

  /** The file name of a manifest written at time `ticks`: `<ticks>.csv`. */
  function CsvFileName(ticks: nat): string {
    IntToDecimal(ticks) + ".csv"
  }

  /** Manifests written at different times get different names. */
  lemma CsvFileNameInjective(t1: nat, t2: nat)
    requires CsvFileName(t1) == CsvFileName(t2)
    ensures t1 == t2
  {
    var d1, d2 := IntToDecimal(t1), IntToDecimal(t2);
    assert |d1| == |d2|;
    assert d1 == CsvFileName(t1)[..|d1|];
    IntToDecimalInjective(t1, t2);
  }

  /** A manifest file as written: its name and the file system after the append. */
  datatype Written = Written(fileName: string, fs: FileSystem)

  /** `createCSVFile(object, csvResultFilePath)`: build the content, then
      append it to `csvResultFilePath + "<ticks>.csv"` and return that name. */
  function CreateCsvFile(fs: FileSystem, source: ManifestSource, directory: string, ticks: nat): (r: Result<Written>)
    ensures r.Failure? <==> ManifestContent(source).Failure?
    ensures r.Failure? ==> r.message == Exceptions.NullReference
    ensures r.Success? ==> r.value.fileName == CsvFileName(ticks)
    ensures r.Success? ==> r.value.fs.files == fs.Append(directory + CsvFileName(ticks), ManifestContent(source).value).files
  {
    var content :- ManifestContent(source);
    var fileName := CsvFileName(ticks);
    Success(Written(fileName, fs.Append(directory + fileName, content)))
  }

  /** The images read back from a manifest: a `null` URL was written as nothing. */
  function ReadBack(images: seq<Image>): (r: seq<Image>)
    ensures |r| == |images|
    ensures forall i :: 0 <= i < |r| ==> r[i] == Image(images[i].imageId, Some(UrlText(images[i])))
  {
    seq(|images|, i requires 0 <= i < |images| => Image(images[i].imageId, Some(UrlText(images[i]))))
  }

  /** Whether a URL survives the CSV format: no comma and no line break. */
  predicate CsvSafe(image: Image) {
    ',' !in UrlText(image) && NoLineBreak(UrlText(image))
  }

  /** A single image makes a manifest of two lines, a list of `n` images one
      of `n + 1` lines: nothing is dropped (for URLs without line breaks). */
  lemma {:induction false} ManifestLineCount(images: seq<Image>)
    requires forall i :: 0 <= i < |images| ==> NoLineBreak(UrlText(images[i]))
    ensures SplitLines(JoinLines(ResultLines(images))) == ResultLines(images)
    ensures |SplitLines(JoinLines(ResultLines(images)))| == |images| + 1
  {
    var lines := ResultLines(images);
    forall i | 0 <= i < |lines|
      ensures NoLineBreak(lines[i])
    {
      if i > 0 {
        ToStringNoLineBreak(images[i - 1]);
      }
    }
    SplitLinesOfJoinLines(lines);
  }

  /** The line `ToString` writes for an image parses back to its id and URL. */
  lemma ParseRowOfToString(image: Image)
    requires ',' !in UrlText(image)
    ensures ParseRow(ToString(image)) == Success(Image(image.imageId, Some(UrlText(image))))
  {
    SplitToString(image);
    ParseInt32OfIntToDecimal(image.imageId);
  }

  /** Parsing the lines of a result manifest gives back every image, in order. */
  lemma ParseResultLines(images: seq<Image>)
    requires forall i :: 0 <= i < |images| ==> CsvSafe(images[i])
    ensures ParseCsv(ResultLines(images)) == Success(ReadBack(images))
  {
    var lines := ResultLines(images);
    var rows := lines[1..];
    forall k | 0 <= k < |rows|
      ensures ParseRow(rows[k]) == Success(ReadBack(images)[k])
    {
      assert rows[k] == ToString(images[k]);
      ParseRowOfToString(images[k]);
    }
    var r := ParseCsv(lines);
    assert r.Success?;
    assert r.value == ReadBack(images);
  }

  /** The elements of a list, none of them `null`. */
  function AsList(images: seq<Image>): (r: seq<Option<Image>>)
    ensures NoNulls(r) && Present(r) == images
  {
    var r := seq(|images|, i requires 0 <= i < |images| => Some(images[i]));
    assert Present(r) == images;
    r
  }

  /** A result manifest file, read back with `ParseCSV`, gives every image in order. */
  lemma ParseCsvFileOfManifest(fs: FileSystem, path: string, images: seq<Image>)
    requires forall i :: 0 <= i < |images| ==> CsvSafe(images[i])
    requires path in fs.files && fs.files[path] == JoinLines(ResultLines(images))
    ensures ParseCsvFile(fs, path) == Success(ReadBack(images))
  {
    forall i | 0 <= i < |images| ensures NoLineBreak(UrlText(images[i])) {
    }
    ManifestLineCount(images);
    ParseResultLines(images);
  }

  /** A manifest path ends in `.csv` whatever the directory. */
  lemma CsvPathExtension(directory: string, ticks: nat)
    ensures Extension(directory + CsvFileName(ticks)) == ".csv"
  {
    var name := "csv";
    assert directory + CsvFileName(ticks) == (directory + IntToDecimal(ticks)) + "." + name;
    ExtensionOfAppend(directory + IntToDecimal(ticks), name);
  }

  /** Round trip: a result manifest written for a list of images, read back
      with `ParseFile`, gives the same ids and URLs in the same order, for URLs
      without commas or line breaks and a file name not already in use. */
  lemma ManifestRoundTrip(fs: FileSystem, images: seq<Image>, directory: string, ticks: nat)
    requires forall i :: 0 <= i < |images| ==> CsvSafe(images[i])
    requires directory + CsvFileName(ticks) !in fs.files
    ensures var written := CreateCsvFile(fs, ImageList(AsList(images)), directory, ticks);
      && written.Success?
      && ParseFile(written.value.fs, directory + written.value.fileName) == Success(ReadBack(images))
  {
    var written := CreateCsvFile(fs, ImageList(AsList(images)), directory, ticks);
    var path := directory + CsvFileName(ticks);
    assert written.value.fs.files[path] == JoinLines(ResultLines(images));
    ParseCsvFileOfManifest(written.value.fs, path, images);
    CsvPathExtension(directory, ticks);
    ParseFileCsv(written.value.fs, path);
  }

  /** What `ParseRawCSV` leaves behind: the file it wrote, and what it returned. */
  datatype Uploaded = Uploaded(written: Written, images: Result<seq<Image>>)

  /** `ParseRawCSV(bytes, filePath)`: the uploaded text is written to a fresh
      `<ticks>.csv` file, which stays on disk whatever happens next, and read
      back with `ParseCSV`, so it returns exactly what `ParseCSV` gives for the
      lines of that text. No other file changes. */
  function ParseRawCsv(fs: FileSystem, raw: string, directory: string, ticks: nat): (r: Uploaded)
    ensures r.written.fileName == CsvFileName(ticks)
    ensures var path := directory + r.written.fileName;
      && path in r.written.fs.files && r.written.fs.files[path] == raw
      && (forall p :: p != path ==> (p in r.written.fs.files <==> p in fs.files))
      && (forall p :: p != path && p in fs.files ==> r.written.fs.files[p] == fs.files[p])
    ensures r.written.fs.spreadsheet == fs.spreadsheet
    ensures r.images == ParseCsv(SplitLines(raw))
  {
    var fileName := CsvFileName(ticks);
    var path := directory + fileName;
    var written := fs.Write(path, raw);
    Uploaded(Written(fileName, written), ParseCsvFile(written, path))
  }

  /** Writing a single image and writing a one-element list give the same text. */
  lemma OneImageIsOneElementList(image: Image)
    ensures ManifestContent(OneImage(image)) == ManifestContent(ImageList([Some(image)]))
  {
    assert Present([Some(image)]) == [image];
  }
}

=== FILE: paths.dfy ===
/** `System.IO.Path` as the service uses it on Windows: `GetFileName` and
    `GetExtension`. Both scan the path backwards from its end. The rejection
    of characters Windows forbids in paths is not part of this model. */
module Paths {
  import opened Strings

  /** The separators `GetFileName` and `GetExtension` stop at: `\`, `/` and the volume separator `:`. */
  predicate IsSeparator(c: char) {
    c == '\\' || c == '/' || c == ':'
  }

  predicate NoSeparator(s: string) {
    forall k :: 0 <= k < |s| ==> !IsSeparator(s[k])
  }

  /** Where the file name of `path[..i]` starts: just after the last separator
      before `i`, or 0. */
  function NameStart(path: string, i: nat): (k: nat)
    requires i <= |path|
    ensures k <= i
    ensures forall j :: k <= j < i ==> !IsSeparator(path[j])
    ensures k > 0 ==> IsSeparator(path[k - 1])
  {
    if i == 0 || IsSeparator(path[i - 1]) then i else NameStart(path, i - 1)
  }

  /** `Path.GetFileName(path)`: the text after the last separator. */
  function FileName(path: string): (r: string)
    ensures EndsWith(path, r) && NoSeparator(r)
    ensures |r| < |path| ==> IsSeparator(path[|path| - |r| - 1])
  {
    path[NameStart(path, |path|)..]
  }

  /** `GetExtension`'s backward scan of `path[..i]`: the position of the `.`
      that starts the extension, or `|path|` when there is none — because a
      separator or the start of the path comes first, or because the `.` is
      the path's last character. */
  function DotScan(path: string, i: nat): (d: nat)
    requires i <= |path|
    ensures d == |path| || (d < i && d + 1 < |path| && path[d] == '.')
    ensures d < |path| ==> forall j :: d < j < i ==> path[j] != '.' && !IsSeparator(path[j])
  {
    if i == 0 then |path|
    else if path[i - 1] == '.' then (if i == |path| then |path| else i - 1)
    else if IsSeparator(path[i - 1]) then |path|
    else DotScan(path, i - 1)
  }

  /** `Path.GetExtension(path)`: the file name from its last `.` on, dot
      included; empty when the file name has no `.` or ends with one. */
  function Extension(path: string): (r: string)
    ensures r == [] || (|r| >= 2 && r[0] == '.')
    ensures EndsWith(path, r)
  {
    path[DotScan(path, |path|)..]
  }

  /** The extension is a `.` followed by text with no `.` and no separator. */
  lemma ExtensionIsPlain(path: string)
    ensures var r := Extension(path);
      r != [] ==> '.' !in r[1..] && NoSeparator(r[1..])
  {
    var d := DotScan(path, |path|);
    var r := Extension(path);
    if r != [] {
      assert forall k :: 0 <= k < |r| - 1 ==> r[1..][k] == path[d + 1 + k];
    }
  }

  /** The scan passes over characters that are neither `.` nor separators. */
  lemma {:induction false} DotScanSkips(path: string, lo: nat, i: nat)
    requires lo <= i <= |path|
    requires forall j :: lo <= j < i ==> path[j] != '.' && !IsSeparator(path[j])
    ensures DotScan(path, i) == DotScan(path, lo)
    decreases i
  {
    if lo < i {
      DotScanSkips(path, lo, i - 1);
    }
  }

  /** The scan for the file name passes over characters that are not separators. */
  lemma {:induction false} NameStartSkips(path: string, lo: nat, i: nat)
    requires lo <= i <= |path|
    requires forall j :: lo <= j < i ==> !IsSeparator(path[j])
    ensures NameStart(path, i) == NameStart(path, lo)
    decreases i
  {
    if lo < i {
      NameStartSkips(path, lo, i - 1);
    }
  }

  /** Appending `.name` to any path gives it the extension `.name`. */
  lemma ExtensionOfAppend(path: string, name: string)
    requires name != "" && '.' !in name && NoSeparator(name)
    ensures Extension(path + "." + name) == "." + name
  {
    var p := path + "." + name;
    assert forall j :: |path| + 1 <= j < |p| ==> p[j] == name[j - |path| - 1];
    DotScanSkips(p, |path| + 1, |p|);
    assert p[|path|] == '.';
    assert p[|path|..] == "." + name;
  }

  /** The extension of a path is `.name` exactly when the path ends with
      `.name`, for any non-empty `name` free of dots and separators. */
  lemma ExtensionIsSuffix(path: string, name: string)
    requires name != "" && '.' !in name && NoSeparator(name)
    ensures Extension(path) == "." + name <==> EndsWith(path, "." + name)
  {
    var suffix := "." + name;
    if EndsWith(path, suffix) {
      var base := path[..|path| - |suffix|];
      assert path == base + "." + name;
      ExtensionOfAppend(base, name);
    }
  }

  /** A file name without a `.` has no extension. */
  lemma {:induction false} NoDotNoExtension(path: string)
    requires '.' !in FileName(path)
    ensures Extension(path) == ""
  {
    var k := NameStart(path, |path|);
    assert forall j :: k <= j < |path| ==> path[j] == FileName(path)[j - k];
    DotScanSkips(path, k, |path|);
    if k > 0 {
      assert IsSeparator(path[k - 1]);
    }
  }

  /** A path ending with `.` has no extension. */
  lemma TrailingDotNoExtension(path: string)
    requires path != [] && path[|path| - 1] == '.'
    ensures Extension(path) == ""
  {
  }

  /** The file name of `dir + name`, when `dir` ends with a separator and
      `name` has none, is `name`. */
  lemma FileNameOfAppend(dir: string, name: string)
    requires dir != [] && IsSeparator(dir[|dir| - 1]) && NoSeparator(name)
    ensures FileName(dir + name) == name
  {
    var p := dir + name;
    assert forall j :: |dir| <= j < |p| ==> p[j] == name[j - |dir|];
    NameStartSkips(p, |dir|, |p|);
    assert p[|dir| - 1] == dir[|dir| - 1];
    assert p[|dir|..] == name;
  }
}

=== FILE: strings.dfy ===
/** The pieces of the .NET base library that the service's text handling rests
    on: `Int32.ToString` and `Int32.Parse`, `String.Split` on one separator
    character, `String.Trim`, and the line splitting of `File.ReadAllLines`
    together with the line joining of `StringBuilder.AppendLine`. */
module Strings {
  import opened Wrappers
  import Exceptions

  /** C#'s `int`. */
  type int32 = x: int | -0x8000_0000 <= x < 0x8000_0000

  predicate IsDigit(c: char) {
    '0' <= c <= '9'
  }

  predicate AllDigits(s: string) {
    forall i :: 0 <= i < |s| ==> IsDigit(s[i])
  }

  function DigitChar(d: nat): (c: char)
    requires d < 10
    ensures IsDigit(c)
  {
    (48 + d) as char
  }

  function DigitValue(c: char): (d: nat)
    requires IsDigit(c)
    ensures d < 10 && DigitChar(d) == c
  {
    c as int - 48
  }

  // ---------------------------------------------------------------------------
  // Decimal rendering and parsing of integers
  // ---------------------------------------------------------------------------

  /** The shortest decimal digit string of `n`. */
  function NatToDecimal(n: nat): (r: string)
    ensures |r| >= 1 && AllDigits(r)
  {
    if n < 10 then [DigitChar(n)] else NatToDecimal(n / 10) + [DigitChar(n % 10)]
  }

  /** The number a digit string denotes (leading zeros allowed, empty is 0). */
  function DecimalValue(s: string): nat
    requires AllDigits(s)
  {
    if s == [] then 0 else 10 * DecimalValue(s[..|s| - 1]) + DigitValue(s[|s| - 1])
  }

  /** `n.ToString()` for an integer: a `-` for negative numbers, then the digits. */
  function IntToDecimal(n: int): (r: string)
    ensures |r| >= 1
    ensures r[0] == '-' <==> n < 0
    ensures forall i :: 0 < i < |r| ==> IsDigit(r[i])
    ensures IsDigit(r[|r| - 1])
  {
    if n < 0 then "-" + NatToDecimal(-n) else NatToDecimal(n)
  }

  /** Reading back the digits of `n` gives `n`. */
  lemma {:induction false} DecimalValueOfNatToDecimal(n: nat)
    ensures DecimalValue(NatToDecimal(n)) == n
  {
    var r := NatToDecimal(n);
    if n >= 10 {
      var prefix := NatToDecimal(n / 10);
      assert r == prefix + [DigitChar(n % 10)];
      assert r[..|r| - 1] == prefix;
      DecimalValueOfNatToDecimal(n / 10);
    }
  }

  /** The white space `Int32.Parse` skips around a number (`NumberStyles.Integer`). */
  predicate IsNumberWhite(c: char) {
    c == ' ' || '\t' <= c <= '\r'
  }

  /** `Char.IsWhiteSpace` on Latin-1, the white space `String.Trim()` removes. */
  predicate IsWhiteSpace(c: char) {
    c == ' ' || '\t' <= c <= '\r' || c as int == 0x85 || c as int == 0xA0
  }

  /** `s` without the leading characters that satisfy `white`. */
  function TrimStart(s: string, white: char -> bool): (r: string)
    ensures |r| <= |s| && r == s[|s| - |r|..]
    ensures r == [] || !white(r[0])
  {
    if s != [] && white(s[0]) then TrimStart(s[1..], white) else s
  }

  /** `s` without the trailing characters that satisfy `white`. */
  function TrimEnd(s: string, white: char -> bool): (r: string)
    ensures |r| <= |s| && r == s[..|r|]
    ensures r == [] || !white(r[|r| - 1])
  {
    if s != [] && white(s[|s| - 1]) then TrimEnd(s[..|s| - 1], white) else s
  }

  function Trim(s: string, white: char -> bool): string {
    TrimEnd(TrimStart(s, white), white)
  }

  /** Trimming leaves a string alone when it starts and ends with non-white characters. */
  lemma TrimUntrimmed(s: string, white: char -> bool)
    requires s != [] && !white(s[0]) && !white(s[|s| - 1])
    ensures Trim(s, white) == s
  {
    assert TrimStart(s, white) == s;
  }

  /** The value of text of the form `[sign] digits`, or `None` for any other text. */
  function SignedDecimalValue(t: string): Option<int> {
    if t == [] then None
    else
      var digits := if t[0] == '-' || t[0] == '+' then t[1..] else t;
      if digits == [] || !AllDigits(digits) then None
      else Some(if t[0] == '-' then -(DecimalValue(digits) as int) else DecimalValue(digits))
  }

  /** `Int32.Parse(s)` under `NumberStyles.Integer`: optional white space, an
      optional sign, one or more digits, optional white space. Anything else is
      a `FormatException`; a value outside C#'s `int` an `OverflowException`. */
  function ParseInt32(s: string): (r: Result<int32>)
    ensures r.Failure? ==> r.message in {Exceptions.BadFormat, Exceptions.Int32Overflow}
  {
    var t := Trim(s, IsNumberWhite);
    match SignedDecimalValue(t)
    case None => Failure(Exceptions.BadFormat)
    case Some(v) =>
      if -0x8000_0000 <= v < 0x8000_0000 then Success(v)
      else
        Failure(Exceptions.Int32Overflow)
  }

  /** `ToString` prints an integer in the form `SignedDecimalValue` reads back. */
  lemma {:induction false} SignedDecimalValueOfIntToDecimal(n: int)
    ensures SignedDecimalValue(IntToDecimal(n)) == Some(n)
  {
    var s := IntToDecimal(n);
    if n < 0 {
      assert s[1..] == NatToDecimal(-n);
      DecimalValueOfNatToDecimal(-n);
    } else {
      DecimalValueOfNatToDecimal(n);
    }
  }

  /** Parsing what `ToString` printed gives back the same `int`. */
  lemma {:induction false} ParseInt32OfIntToDecimal(n: int32)
    ensures ParseInt32(IntToDecimal(n)) == Success(n)
  {
    TrimUntrimmed(IntToDecimal(n), IsNumberWhite);
    SignedDecimalValueOfIntToDecimal(n);
  }

  /** Distinct numbers print differently. */
  lemma {:induction false} IntToDecimalInjective(a: int, b: int)
    requires IntToDecimal(a) == IntToDecimal(b)
    ensures a == b
  {
    var s := IntToDecimal(a);
    if a < 0 {
      assert b < 0;
      assert NatToDecimal(-a) == s[1..] == NatToDecimal(-b);
      DecimalValueOfNatToDecimal(-a);
      DecimalValueOfNatToDecimal(-b);
    } else {
      assert b >= 0;
      DecimalValueOfNatToDecimal(a);
      DecimalValueOfNatToDecimal(b);
    }
  }

  // ---------------------------------------------------------------------------
  // Searching and splitting
  // ---------------------------------------------------------------------------

  predicate EndsWith(s: string, suffix: string) {
    |suffix| <= |s| && s[|s| - |suffix|..] == suffix
  }

  /** The position of the first `c` in `s`. */
  function IndexOf(s: string, c: char): (i: nat)
    requires c in s
    ensures i < |s| && s[i] == c && c !in s[..i]
  {
    if s[0] == c then 0 else 1 + IndexOf(s[1..], c)
  }

  /** The first position holding `c` is the one `IndexOf` finds. */
  lemma IndexOfFirst(s: string, c: char, i: nat)
    requires i < |s| && s[i] == c && c !in s[..i]
    ensures IndexOf(s, c) == i
  {
  }

  /** The fields separated by `sep`, concatenated back with `sep` between them. */
  function Join(fields: seq<string>, sep: char): string
    requires |fields| >= 1
  {
    if |fields| == 1 then fields[0] else fields[0] + [sep] + Join(fields[1..], sep)
  }

  /** `s.Split(new char[] { sep })`: the maximal runs of `s` free of `sep`, in
      order, empty runs included, so there is always at least one field. */
  function Split(s: string, sep: char): (fields: seq<string>)
    ensures |fields| >= 1
    ensures forall i :: 0 <= i < |fields| ==> sep !in fields[i]
  {
    if s == [] then [""]
    else
      var rest := Split(s[1..], sep);
      if s[0] == sep then [""] + rest else [[s[0]] + rest[0]] + rest[1..]
  }

  /** Joining the fields with the separator gives back the text: `Split` loses nothing. */
  lemma {:induction false} JoinSplit(s: string, sep: char)
    ensures Join(Split(s, sep), sep) == s
  {
    if s != [] {
      var rest := Split(s[1..], sep);
      JoinSplit(s[1..], sep);
      if s[0] != sep {
        var fields := Split(s, sep);
        assert fields[1..] == rest[1..];
        if |rest| == 1 {
          assert Join(fields, sep) == [s[0]] + rest[0];
        } else {
          assert Join(fields, sep) == [s[0]] + rest[0] + [sep] + Join(rest[1..], sep);
        }
      }
    }
  }

  /** A string with no separator is one field. */
  lemma {:induction false} SplitNoSeparator(s: string, sep: char)
    requires sep !in s
    ensures Split(s, sep) == [s]
  {
    if s != [] {
      SplitNoSeparator(s[1..], sep);
      var rest := Split(s[1..], sep);
      assert s[0] != sep;
      assert rest[1..] == [];
      assert [s[0]] + rest[0] == s;
    }
  }

  /** The text before the first separator is the first field; the fields of
      the text after it are the remaining fields. */
  lemma {:induction false} SplitAtFirst(a: string, sep: char, b: string)
    requires sep !in a
    ensures Split(a + [sep] + b, sep) == [a] + Split(b, sep)
  {
    var s := a + [sep] + b;
    if a == [] {
      assert s[1..] == b;
    } else {
      assert s[1..] == a[1..] + [sep] + b;
      SplitAtFirst(a[1..], sep, b);
      assert [a[0]] + a[1..] == a;
    }
  }

  /** Splitting what `Join` built gives back the fields, when no field holds the separator. */
  lemma {:induction false} SplitJoin(fields: seq<string>, sep: char)
    requires |fields| >= 1
    requires forall i :: 0 <= i < |fields| ==> sep !in fields[i]
    ensures Split(Join(fields, sep), sep) == fields
  {
    if |fields| == 1 {
      SplitNoSeparator(fields[0], sep);
    } else {
      SplitJoin(fields[1..], sep);
      SplitAtFirst(fields[0], sep, Join(fields[1..], sep));
    }
  }

  /** The text of `s` before the first `c`, or all of `s` when there is none. */
  function UpTo(s: string, c: char): (r: string)
    ensures c !in r && r <= s
  {
    if c in s then s[..IndexOf(s, c)] else s
  }

  /** The first field is the text before the first separator; there is a
      second field exactly when there is a separator, and it is the text
      between the first separator and the next one. */
  lemma {:induction false} SplitFirstFields(s: string, sep: char)
    ensures Split(s, sep)[0] == UpTo(s, sep)
    ensures |Split(s, sep)| >= 2 <==> sep in s
    ensures sep in s ==> Split(s, sep)[1] == UpTo(s[IndexOf(s, sep) + 1..], sep)
  {
    SplitFirstField(s, sep);
    if sep in s {
      var i := IndexOf(s, sep);
      SplitFirstField(s[i + 1..], sep);
    }
  }

  lemma {:induction false} SplitFirstField(s: string, sep: char)
    ensures Split(s, sep)[0] == UpTo(s, sep)
    ensures |Split(s, sep)| >= 2 <==> sep in s
    ensures sep in s ==> Split(s, sep)[1..] == Split(s[IndexOf(s, sep) + 1..], sep)
  {
    if sep in s {
      var i := IndexOf(s, sep);
      assert s == s[..i] + [sep] + s[i + 1..];
      SplitAtFirst(s[..i], sep, s[i + 1..]);
    } else {
      SplitNoSeparator(s, sep);
    }
  }

  // ---------------------------------------------------------------------------
  // Lines
  // ---------------------------------------------------------------------------

  predicate IsLineBreak(c: char) {
    c == '\r' || c == '\n'
  }

  /** `Environment.NewLine` on Windows, the terminator `AppendLine` writes. */
  const NewLine := "\r\n"

  /** The position of the first line break in `s`, or `|s|`. */
  function LineEnd(s: string): (i: nat)
    ensures i <= |s|
    ensures forall k :: 0 <= k < i ==> !IsLineBreak(s[k])
    ensures i < |s| ==> IsLineBreak(s[i])
  {
    if s == [] || IsLineBreak(s[0]) then 0 else 1 + LineEnd(s[1..])
  }

  /** The lines `File.ReadAllLines` returns for a file holding `s`: a line ends
      at `\r\n`, `\r` or `\n`, and a final line needs no terminator. */
  function SplitLines(s: string): (lines: seq<string>)
    ensures forall i :: 0 <= i < |lines| ==> forall k :: 0 <= k < |lines[i]| ==> !IsLineBreak(lines[i][k])
    decreases |s|
  {
    if s == [] then []
    else
      var i := LineEnd(s);
      if i == |s| then [s]
      else if s[i] == '\r' && i + 1 < |s| && s[i + 1] == '\n' then [s[..i]] + SplitLines(s[i + 2..])
      else [s[..i]] + SplitLines(s[i + 1..])
  }

  /** The text a `StringBuilder` holds after `AppendLine` of each line in turn. */
  function JoinLines(lines: seq<string>): string {
    if lines == [] then "" else lines[0] + NewLine + JoinLines(lines[1..])
  }

  predicate NoLineBreak(s: string) {
    forall k :: 0 <= k < |s| ==> !IsLineBreak(s[k])
  }

  /** Reading back lines written one per `AppendLine` gives the same lines,
      when none of them holds a line break. */
  lemma {:induction false} SplitLinesOfJoinLines(lines: seq<string>)
    requires forall i :: 0 <= i < |lines| ==> NoLineBreak(lines[i])
    ensures SplitLines(JoinLines(lines)) == lines
  {
    if lines != [] {
      var l := lines[0];
      var rest := JoinLines(lines[1..]);
      var s := JoinLines(lines);
      assert s == l + NewLine + rest;
      LineEndOfLine(l, NewLine + rest);
      assert s[..|l|] == l;
      assert s[|l|] == '\r' && s[|l| + 1] == '\n';
      assert s[|l| + 2..] == rest;
      SplitLinesOfJoinLines(lines[1..]);
      assert lines == [l] + lines[1..];
    }
  }

  lemma {:induction false} LineEndOfLine(l: string, tail: string)
    requires NoLineBreak(l)
    requires tail != [] && IsLineBreak(tail[0])
    ensures LineEnd(l + tail) == |l|
  {
    if l != [] {
      assert (l + tail)[1..] == l[1..] + tail;
      LineEndOfLine(l[1..], tail);
    }
  }
}

=== FILE: wrappers.dfy ===
/** Failure-compatible datatypes shared by the whole model.

    The service signals errors with .NET exceptions and only ever looks at an
    exception's `Message`, so a thrown exception is modelled as
    `Failure(message)` and a normal return as `Success(value)`. A C# reference
    that may be `null` is an `Option`.
 */
module Wrappers {

  /** A nullable reference: `None` is `null`. */
  datatype Option<+T> = None | Some(value: T) {

    /** The wrapped value, or `default` for `null`. */
    function GetOr(default: T): T {
      match this
      case Some(v) => v
      case None => default
    }
  }

  /** The value returned by a call, or the message of the exception it threw. */
  datatype Result<+T> = Success(value: T) | Failure(message: string) {

    predicate IsFailure() {
      Failure?
    }

    function PropagateFailure<U>(): Result<U>
      requires Failure?
    {
      Failure(message)
    }

    function Extract(): T
      requires Success?
    {
      value
    }
  }

  /** The position of the first failure in `rs`, or `|rs|` when there is none. */
  function FirstFailure<T>(rs: seq<Result<T>>): (i: nat)
    ensures i <= |rs|
    ensures forall j :: 0 <= j < i ==> rs[j].Success?
    ensures i < |rs| ==> rs[i].Failure?
  {
    if rs == [] || rs[0].Failure? then 0 else 1 + FirstFailure(rs[1..])
  }

  /** Run a sequence of calls in order: the values of all of them, or the
      exception of the first one that throws (later ones are never made). */
  function Collect<T>(rs: seq<Result<T>>): (r: Result<seq<T>>)
    ensures r.Success? <==> FirstFailure(rs) == |rs|
    ensures r.Failure? ==> r.message == rs[FirstFailure(rs)].message
    ensures r.Success? ==> |r.value| == |rs| && forall i :: 0 <= i < |rs| ==> rs[i] == Success(r.value[i])
  {
    if rs == [] then Success([])
    else
      var v :- rs[0];
      var rest :- Collect(rs[1..]);
      Success([v] + rest)
  }

  /** A call that returns nothing (`void`), or the message of the exception it threw. */
  datatype Outcome = Pass | Throw(message: string)
}

/** Messages of the exceptions the .NET Framework raises on the paths the
    service can reach; the service forwards them unchanged to its callers. */
module Exceptions {

  /** `NullReferenceException`: a member was read through `null`. */
  const NullReference := "Object reference not set to an instance of an object."

  /** `IndexOutOfRangeException`: an array was indexed past its end. */
  const IndexOutOfRange := "Index was outside the bounds of the array."

  /** `FormatException` from `Int32.Parse`. */
  const BadFormat := "Input string was not in a correct format."

  /** `OverflowException` from `Int32.Parse`. */
  const Int32Overflow := "Value was either too large or too small for an Int32."

  /** `ArgumentOutOfRangeException` from `String.Remove(0, 1)` on the empty string. */
  const RemoveOutOfRange := "Index and count must refer to a location within the string.\r\nParameter name: count"
}
